=== FILE: README.md ===
# yt-reminder-ext in Dafny

A functional model of the decision logic of the "yt-reminder-ext" browser
extension, with the properties it promises proved.

The extension has three parts:

- **The background worker** (`background.js`) has two jobs.
  - Every day it schedules wake-ups. There is one `check-<HH:MM>` alarm for each configured Japan Standard Time (JST) check time still ahead today, on configured weekdays only. There is also one `reset-next-day` alarm at 09:00 JST of the next date.
  - When a check alarm rings, it reads the channel's Atom feed. It picks the newest entry that is not a Short and raises one notification per new video when checks run one at a time (overlapping checks: see "## Findings").
- **The content script** (`content.js`) watches the playing video. It sends one "near end" message per video when at most 45 seconds of a video longer than a minute remain.
- **The options page** (`options.js`) edits the stored configuration as three text fields.

The modules:

| module | file | models |
|---|---|---|
| `Wrappers` | wrappers.dfy | `Option`, standing for `null`/`undefined`, and `??` |
| `Text` | text.dfy | the string built-ins the code uses: `split`, `join`, `trim`, `parseInt`, `String(n)`, `padStart`, ASCII case folding |
| `Calendar` | calendar.dfy | ECMAScript time values and the Gregorian calendar: `Date.UTC` (years 0 to 99 read as 1900 to 1999), the field getters, `setUTCDate`, and a plain calendar (`Date`, `NextDate`) tied to them |
| `Settings` | settings.dfy | the stored `config` record |
| `Scheduler` | scheduler.dfy | `toJst`, `pad`, `jstDateTimeToEpochMs`, `nextDateJst`, `setDailyAlarms` and the `onAlarm` dispatch |
| `FeedChecker` | feed.dfy | the entry scan of `fetchLatestViaRss`, `checkLatestAndNotify` and its button listener |
| `NearEnd` | nearend.dfy | `isFiniteDuration`, `check`, the identity-change observer, `tryAttach` |
| `Options` | options.dfy | `load`, `save` and `resetToDefaults` |

Modelling choices:

- **Time:** instants are integers of milliseconds since the epoch. The host's time-zone offset is a parameter `hostOffset`, constant over the run.
- **Alarms:** the alarm store is a map from alarm name to instant. Creating an alarm under an existing name replaces it.
- **Feed:** the feed is the sequence of entries already extracted from the XML. `None` stands for a failed request.
- **Playback:** positions are reals. A duration is finite or not.

### The host time zone

`toJst` shifts an instant by nine hours. The code then reads the shifted instant's fields with the host's local getters (`getDay`, `getFullYear`, `getMonth`, `getDate`).

- **On a UTC host** this gives the JST fields. `Scheduler.SetDailyAlarmsJst` is that reading, and the rest of the model relies on it.
- **On a host in Japan** the fields are those of an instant nine hours after JST. From 15:00 JST on, "today" is already tomorrow's date. See "## Findings".
- **`nextDateJst`** is unaffected. It writes the correct next date on any host whose offset lies in [-9 h, +15 h).

## Model

| member | source | states |
|---|---|---|
| Calendar.DayFromYearIsFormula | background.js:161 | counting year lengths from 1970 gives the closed form for January 1st of any year, which `Date.UTC` uses |
| Calendar.YearFromDayUnique | background.js:33 | the year `getFullYear` reads is the one year whose days contain the instant's day |
| Calendar.MonthFromDayInYear | background.js:33 | the month `getMonth` reads is the one month whose days contain the day of the year |
| Calendar.DateOfDayInverse | background.js:33 | the year, month and day-of-month fields of every day form a valid date that numbers back to that day |
| Calendar.DayNumberInverse | background.js:161 | a valid date's day number has that date's fields again |
| Calendar.DateUtcOfDate | background.js:161 | `Date.UTC` of a valid date of year 100 or later is its day number in milliseconds plus the hours and minutes given, negative hours included |
| Calendar.SetUtcDateNextDay | background.js:166 | `setUTCDate(getUTCDate() + 1)` moves an instant on by exactly one day, also on the last day of a month |
| Calendar.NextDayIsNextDate | background.js:163-169 | the date of the day after a valid date is the calendar's next date: the month and the year roll over, and February has 29 days in leap years only |
| Calendar.WeekDay | background.js:29 | the weekday `getDay` reads is in 0 (Sunday) to 6 |
| Calendar.WeekDayNext | background.js:29 | one day later `getDay` reads the next weekday, Saturday (6) wrapping to Sunday (0) |
| Calendar.KnownWednesday | background.js:29-33 | 2026-10-14 is a valid date with day number 20740, the date of that day number, and a Wednesday (3) |
| Text.Split | options.js:19 | `split` gives at least one piece, no piece holds the separator, and joining the pieces gives the text back |
| Text.SplitJoin | options.js:11-20 | splitting the comma join of comma-free pieces gives the pieces back |
| Text.Trim | options.js:18 | `trim` gives a slice of its input with only white space cut before and after it, leaves no white space at either end, and keeps text that has none |
| Text.TrimPadded | options.js:18 | any text with no white space at its ends, surrounded by any white space, trims back to itself |
| Text.NatToString | background.js:156 | `String(n)` writes digits that read back as `n`, one digit below 10, at most two below 100, and no leading zero |
| Text.Pad2 | background.js:156 | `pad` writes digits that read as the number: exactly two below 100, and the plain number, with no leading zero, from 100 on |
| Text.ParseIntOfString | options.js:20 | `parseInt(s, 10)` reads back the number `String` wrote, and stops at the first character that is not a digit |
| Scheduler.FormatDateRoundTrip | background.js:156-158 | the date text built with `pad` splits on `-` back into that year, month and day |
| Scheduler.TimeTextOf | background.js:159 | "HH:MM" text splits on `:` into its hour and minute |
| Scheduler.FieldsYmd | background.js:33 | the `ymd` text of an instant names the date of the instant's day |
| Scheduler.JstDateTimeToEpochMs | background.js:157-162 | on a valid date of year 100 or later, the result is the instant at which that JST wall-clock time falls on that date |
| Scheduler.JstDateTimeFields | background.js:155-162 | `toJst` of the result has exactly the date, hour and minute written as its UTC fields |
| Scheduler.UtcMidnight | background.js:165 | `Date.UTC(y, m - 1, d, 0, 0, 0)` is the first instant of the date's day |
| Scheduler.NextUtcMidnight | background.js:165-166 | adding one to the UTC date moves that midnight on by one day |
| Scheduler.NextDateJst | background.js:163-169 | the result is date text naming the date of the instant it reads |
| Scheduler.NextDateJstIsNextDate | background.js:163-169 | `nextDateJst` writes the zero-padded calendar successor on any host with offset in [-9 h, +15 h) |
| Scheduler.NextDateJstLeapDay | background.js:163-169 | February 28th is followed by February 29th in leap years and by March 1st otherwise |
| Scheduler.NextDateJstMonthEnd | background.js:163-169 | the last day of a month is followed by the first of the next month, and December 31st by January 1st of the next year |
| Scheduler.CheckAlarmName | background.js:38 | `check-<t>` starts with `check-`, ends with `t`, and is never the reset alarm's name |
| Scheduler.CheckAlarmsSpec | background.js:35-41 | the loop creates `check-<t>` for exactly the listed times whose instant on `ymd` is after now, each ringing at that instant, and nothing else |
| Scheduler.ApplyCheckOps | background.js:35-41 | running the loop's creates on a store adds those check alarms to it |
| Scheduler.ResetInstant | background.js:44-45 | the reset alarm rings at 09:00 JST of the next date, which is the start of the next UTC day |
| Scheduler.SetDailyAlarmsForgetsStore | background.js:25 | the result does not depend on the alarms that existed before, and a second run at the same instant changes nothing |
| Scheduler.SetDailyAlarmsResult | background.js:23-47 | the store afterwards is the check alarms of the day the host reads as today, plus the reset alarm |
| Scheduler.SetDailyAlarmsSpec | background.js:28-45 | alarm by alarm: the reset alarm at the start of the UTC day after "today", and `check-<t>` exactly for today's times whose instant is after now |
| Scheduler.SetDailyAlarmsJstSpec | background.js:23-47 | with the JST reading: the reset alarm at the start of the UTC day after today's JST date, and `check-<t>` exactly when today's JST weekday is configured, `t` is configured, and `t` on today's JST date is after now; only the reset alarm on other weekdays |
| Scheduler.ResetAtNineJst | background.js:44-45 | the reset alarm rings at 09:00 JST of the next JST date, whatever the weekday |
| Scheduler.EmptyTimesOnlyReset | background.js:30-32 | a stored empty time list does not fall back to the defaults (`||` only replaces a missing list), so only the reset alarm is set |
| Scheduler.OnAlarm | background.js:49-58 | the reset alarm reschedules, a `check-` alarm checks the feed, and any other alarm is ignored |
| Scheduler.SetDailyAlarmsRouting | background.js:35-58 | every alarm a run sets is acted on: the reset alarm reschedules and every other alarm checks the feed |
| Scheduler.JstHostReadsTomorrow | background.js:28-29 | on a host in Japan, from 15:00 JST on, the date and weekday read as today are tomorrow's |
| Scheduler.JstHostDropsEvening | background.js:28-45 | on a host in Japan, from 15:00 JST on a check day followed by a non-check day, the code sets no check alarm that the JST reading sets, and its reset alarm is one day later |
| Scheduler.WednesdayAfternoonDate | background.js:28-29 | 2026-10-14T07:00Z falls on JST date 2026-10-14, a Wednesday by the calendar |
| Scheduler.JstHostDropsWednesdayEvening | background.js:2-45 | with the defaults, started on a host in Japan at 16:00 JST on Wednesday 2026-10-14, the code sets no `check-19:00` alarm, and the JST reading does |
| FeedChecker.HashShortsIsShortsWord | background.js:136 | wherever `#shorts\b` matches ignoring case, `\bshorts\b` matches one character later |
| FeedChecker.TitleTestIsShortsWord | background.js:136 | the title test holds exactly when `\bshorts\b` matches ignoring case |
| FeedChecker.WatchUrl | background.js:142-144 | the URL always contains `/watch`; it is `href` unchanged when `href` contains `/watch`, otherwise the watch prefix followed by the video id |
| FeedChecker.SelectLatestNone | background.js:124-151 | the scan returns null exactly when no entry has an id and a link and is not a Short |
| FeedChecker.SelectLatestFirst | background.js:125-146 | the scan returns the first eligible entry in feed order: its id, its title, and its link as a watch URL |
| FeedChecker.SelectLatestWatchUrl | background.js:142-146 | whatever the scan returns links to a watch page |
| FeedChecker.NotificationId | background.js:92 | the notification id is `new-` followed by the video id |
| FeedChecker.CheckSilentCases | background.js:76-90 | no channel, a failed fetch, no eligible entry, or the video notified last: no notification and the state unchanged |
| FeedChecker.CheckNotifies | background.js:92-111 | otherwise, when the notification is created, exactly one notification is raised. Its id is `new-<id>`, its message is the title or "YouTube 新着", and its first button opens the watch URL. The state records the id and keeps its other fields |
| FeedChecker.StateAdvancesOnlyWithNotification | background.js:92-111 | the state changes exactly when a notification is raised, only if creating it succeeded, and then records the video the notification names |
| FeedChecker.FailedNotificationRetried | background.js:92-111 | when `notifications.create` rejects, nothing is raised and the state is not written, so the next check raises the notification a fresh check would |
| FeedChecker.SecondCheckSilent | background.js:86-111 | the same check run again, after a successful check has written its state back, raises nothing |
| FeedChecker.OverlappingChecksNotifyTwice | background.js:49-111 | two checks that both read the state before either writes it raise the same notification for a new video twice, and both click listeners open the video on the first button |
| FeedChecker.SerialChecksNotifyOnce | background.js:76-111 | two checks run one after the other raise at most one notification, and exactly one when the channel is set and the latest eligible video is not the one notified last |
| FeedChecker.ClickSpec | background.js:102-108 | a click on another notification does nothing. A click on this one clears it and removes the listener, and only the first button opens the video |
| NearEnd.Start | content.js:5-6 | a page starts tracking the id in its address, not yet notified |
| NearEnd.Check | content.js:42-55 | `check` fires exactly when not yet notified, the duration is finite and above 60 s, and the position lies in [duration - 45, duration) |
| NearEnd.Observe | content.js:63-69 | a different id starts a new session that is not yet notified; the same id changes nothing |
| NearEnd.TryAttach | content.js:78-85 | watching starts exactly when a video element exists and its duration is finite and positive or its ready state is above zero |
| NearEnd.AttachAt | content.js:77-89 | over successive tries, watching first starts at the first try `tryAttach` accepts, and never if it accepts none |
| NearEnd.ReportableIsAttachable | content.js:42-85 | every video `check` would report is one `tryAttach` accepts, and a video accepted without a finite duration is never reported |
| NearEnd.AtMostOncePerIdentity | content.js:42-69 | over any sequence of checks and observations, the messages sent are at most one for the starting identity plus one per identity change; going from A to B and back to A may report A twice |
| NearEnd.SameIdentityAtMostOnce | content.js:49-50 | without an identity change, checks send at most one message, and none once notified |
| NearEnd.MessagesCarryIdentity | content.js:51-52 | every message carries the id being tracked when it is sent |
| NearEnd.ShortVideoSilent | content.js:43-44 | a video never longer than 60 s is never reported |
| NearEnd.HundredSecondVideo | content.js:42-55 | a 100 s video checked at 50, 56 and 58 s is reported exactly once |
| NearEnd.ThirtySecondVideo | content.js:44 | a 30 s video is never reported |
| NearEnd.NextVideoReportedOnce | content.js:42-69 | after video A is reported, observing B lets B be reported once, and observing B again does not reset it |
| Options.NonEmpty | options.js:19 | `filter(Boolean)` keeps no empty string and keeps a list without empty strings as it is |
| Options.Numbers | options.js:20 | every piece that parses gives its number, in order, and a single piece that does not parse (NaN) gives nothing |
| Options.NonEmptyConcat | options.js:19 | filtering keeps the order of the pieces |
| Options.SaveTimes | options.js:19 | no saved time is empty, has white space at either end, or holds a comma; a text without a comma saves as its trimmed self, or as nothing when that is empty |
| Options.SaveDays | options.js:20 | a text without a comma saves as the number `parseInt` reads from it, or as nothing when it reads NaN; never more days than pieces |
| Options.Save | options.js:16-21 | every field is stored: the channel is the input trimmed, the times are `SaveTimes` of the times text and the days `SaveDays` of the days text |
| Options.Load | options.js:8-13 | nothing stored shows the page's defaults (`UCwjx6ZG4pwCvAPSozYEWymA`, `19:02`, `3,6`). In a stored configuration each missing field falls back to its default text, and each present field is shown as stored, lists joined with commas, even when empty |
| Options.ResetToDefaults | options.js:29-31 | the page's defaults (`19:02`, days 3 and 6) are stored, so the page then shows what it shows when nothing is stored |
| Options.TimesRoundTrip | options.js:11-19 | a list of non-empty, trimmed, comma-free times survives `join(",")` and the save parsing unchanged |
| Options.DaysRoundTrip | options.js:12-20 | any list of integers survives `join(",")` and the save parsing unchanged, 7 and -1 included |
| Options.LoadSaveRoundTrip | options.js:8-21 | saving what `load` shows gives back the stored configuration itself, when all three fields are stored, its channel is trimmed and its times are clean |
| Options.ResetThenSave | options.js:2-31 | saving the page right after a reset stores the defaults again |
| Options.DayWithTrailingText | options.js:20 | a number followed by text that does not start with a digit saves as that number |
| Options.SaveKeepsOrder | options.js:19-20 | the times and days of `a,b` are those of `a` followed by those of `b` |
| Options.ThreeX | options.js:20 | the day text "3x" saves as 3 |

## Left out

- The `chrome.*` plumbing is not modelled: storage wrappers, notification icons and priority, `tabs.create`/`tabs.update`, `runtime.sendMessage` and listener registration. Each appears as an output value instead: an alarm map, a notification record, a click effect or a message.
- The `onInstalled` handler (background.js:11-18) is not modelled. It writes the defaults when nothing is stored, then runs `setDailyAlarms`, which is modelled.
- The near-end message handler (background.js:172-194) is not modelled. It raises one notification per message, with no deduplication and no logic beyond that.
- `fetch`, the response status and the response text are not modelled. The fetch result is an input, with `None` for a failed request.
- The regular-expression extraction of `<entry>`, `<yt:videoId>`, the alternate link and `<title>` (background.js:124-130) is not modelled. The entries are given as records of optional fields, in feed order (`atom:entry`, section 4.1.2 of RFC 4287).
- `getVideoId` (content.js:11-14) relies on the platform URL parser, which is not modelled. The observed id is an input.
- DOM and timers are not modelled: the in-page hint, event listeners, the 500 ms polls, the observers, `beforeunload` and the 15 s observer disconnect. Each callback is one step of the modelled state machine. The 15 s limit only disconnects the observer; the 500 ms poll keeps trying to attach.
- NearEnd.AttachAt: gives only the first attachment. When the 500 ms poll attaches first, content.js:87 stops only the poll. The mutation observer of content.js:89 stays connected until the 15 s timeout (content.js:91), and a DOM change in that window calls `attachWatch` again. That adds a second set of listeners, a second `check` poll and a second identity observer. The messages sent are unaffected: every copy shares the one `notified` and `videoId` (content.js:5-6), so their calls are just more `Tick` and `Observed` steps of the one session, which `NearEnd.AtMostOncePerIdentity` covers for any trace.
- FeedChecker.SecondCheckSilent: runs are composed one at a time. `onAlarm` does not await `checkLatestAndNotify` (background.js:56), so two `check-` alarms firing together (after a sleep through both times) run overlapping checks. Both can pass the `lastVideoId` test before either writes the state. `FeedChecker.OverlappingChecksNotifyTwice` models that case; see "## Findings".
- IEEE-754 doubles are not modelled. Positions are reals, and a non-finite duration (NaN or infinity) is one tag.
- Malformed date or time text is not modelled. `jstDateTimeToEpochMs` and `nextDateJst` require well-formed "YYYY-MM-DD" and "HH:MM" text (digit runs), since `Number` coercion and NaN are not modelled. The date text is always built by the code itself and is well formed.
- Scheduler.SetDailyAlarms: requires every configured time to be "HH:MM" digit text. The options page can save other text. On "7pm" the code computes NaN and sets no alarm for it. On "19:00:30" it reads 19:00 and sets `check-19:00:30` for that instant. Runs on such configurations are outside the model. The same holds for `Scheduler.SetDailyAlarmsJst` and the lemmas about both.
- `getConfig` and `getState` (background.js:61-70) are not modelled as functions: the configuration and the state are inputs. A missing time or weekday list falls back to the defaults in `Scheduler.EffectiveTimes` and `Scheduler.EffectiveWeekdays`.
- `TimeClip` (instants beyond ±8.64e15 ms become NaN) is not modelled.
- Scheduler.NextDateJstIsNextDate: proved for years 100 and later only. `Date.UTC` reads years 0 to 99 as 1900 to 1999, and that rule is modelled.
- Scheduler.NextDateJstIsNextDate: says nothing for hosts more than 9 h behind UTC. There `nextDateJst` returns the same date, so the reset alarm is set for 09:00 JST of that date, not of the next one.
- Scheduler.SetDailyAlarmsSpec: proved for instants from 1970 on, and for host offsets in [-9 h, +15 h) with no daylight-saving changes.
- The second `Date.now()` read inside the loop (background.js:37) is not modelled. A single `now` is used for the whole run.
- Logging is not modelled.

## Findings

| source | as written | input that shows it | evidently intended | confidence | as-written member | corrected member |
|---|---|---|---|---|---|---|
| background.js:49-111 | `onAlarm` starts `checkLatestAndNotify` without awaiting it, and the check awaits the feed and the state before writing `lastVideoId`, so two check alarms that fire together (both missed during a sleep) both see the old `lastVideoId` | a new video X, `lastVideoId` not X, and alarms `check-19:00` and `check-19:15` both delivered on wake: both runs call `notifications.create("new-X")` and register a click listener, and the first button opens X in two tabs | one check at a time (or `lastVideoId` claimed before the notification is created), so that the second check sees X and stays silent, as the "prevent double notification" comment at background.js:89 intends | not executed | FeedChecker.OverlappingChecks (lemma FeedChecker.OverlappingChecksNotifyTwice) | FeedChecker.SerialChecks (lemmas FeedChecker.SerialChecksNotifyOnce, FeedChecker.SecondCheckSilent) |
| background.js:28-33 | today's weekday and `ymd` are read from `toJst(now)` with the local getters, so on a host in Japan they are those of nine hours after JST | default config, host offset +9 h, now = 2026-10-14T07:00Z (Wednesday 16:00 JST): today reads as Thursday, no `check-19:00` or `check-19:15` alarm is set, and the reset alarm rings at 09:00 JST on Friday instead of Thursday | read the JST fields of `toJst(now)` (the UTC getters), so that Wednesday's 19:00 and 19:15 checks are set and the reset rings at 09:00 JST on Thursday | not executed | Scheduler.SetDailyAlarms (lemmas Scheduler.JstHostDropsEvening, Scheduler.JstHostDropsWednesdayEvening) | Scheduler.SetDailyAlarmsJst (lemma Scheduler.SetDailyAlarmsJstSpec) |

=== FILE: calendar.dfy ===
/**
 * ECMAScript time values (milliseconds since 1970-01-01T00:00:00Z) and the
 * abstract operations of section 21.4.1 of ECMA-262 that `Date.UTC`,
 * `setUTCDate` and the field getters are defined by, on unbounded integers.
 *
 * Next to them stands an independent description of the proleptic Gregorian
 * calendar (`Date`, `DaysInMonth`, `NextDate`) and the lemmas that tie the two
 * together: day numbers and civil dates are inverse to each other, and the day
 * after a date has the next day number.
 */
module Calendar {

  const MsPerSecond: int := 1000
  const MsPerMinute: int := 60000
  const MsPerHour: int := 3600000
  const MsPerDay: int := 86400000

  // ---------------------------------------------------------------------------
  // Days and years (ECMA-262 21.4.1.3 and 21.4.1.4)
  // ---------------------------------------------------------------------------

  /** Day(t): the number of the day `t` falls in (floor division). */
  function Day(t: int): int {
    t / MsPerDay
  }

  /** TimeWithinDay(t): milliseconds since the start of that day. */
  function TimeWithinDay(t: int): int {
    t % MsPerDay
  }

  predicate IsLeapYear(y: int) {
    y % 4 == 0 && (y % 100 != 0 || y % 400 == 0)
  }

  function DaysInYear(y: int): int {
    if IsLeapYear(y) then 366 else 365
  }

  /** DayFromYear(y): the day number of January 1st of year `y`, counted year
      by year from 1970. `DayFromYearIsFormula` shows it is ECMA-262's closed
      form. */
  function DayFromYear(y: int): int
    decreases if y < 1970 then 1970 - y else y - 1970
  {
    if y == 1970 then 0
    else if y > 1970 then DayFromYear(y - 1) + DaysInYear(y - 1)
    else DayFromYear(y + 1) - DaysInYear(y)
  }

  /** ECMA-262's closed form: 365 days a year, plus a leap day every fourth
      year, less one every hundredth, plus one every four hundredth. */
  function DayFromYearFormula(y: int): int {
    365 * (y - 1970) + (y - 1969) / 4 - (y - 1901) / 100 + (y - 1601) / 400
  }

  lemma Quotient4Step(y: int)
    ensures (y + 1 - 1969) / 4 == (y - 1969) / 4 + (if y % 4 == 0 then 1 else 0)
  {
  }

  lemma Quotient100Step(y: int)
    ensures (y + 1 - 1901) / 100 == (y - 1901) / 100 + (if y % 100 == 0 then 1 else 0)
  {
  }

  lemma Quotient400Step(y: int)
    ensures (y + 1 - 1601) / 400 == (y - 1601) / 400 + (if y % 400 == 0 then 1 else 0)
  {
  }

  lemma Divisible400(y: int)
    requires y % 400 == 0
    ensures y % 100 == 0
  {
    var k := y / 400;
    assert y == 400 * k;
    assert y / 100 == 4 * k;
  }

  lemma Divisible100(y: int)
    requires y % 100 == 0
    ensures y % 4 == 0
  {
    var k := y / 100;
    assert y == 100 * k;
    assert y / 4 == 25 * k;
  }

  /** The closed form grows by the length of each year. */
  lemma FormulaStep(y: int)
    ensures DayFromYearFormula(y + 1) == DayFromYearFormula(y) + DaysInYear(y)
  {
    Quotient4Step(y);
    Quotient100Step(y);
    Quotient400Step(y);
    if y % 400 == 0 {
      Divisible400(y);
    }
    if y % 100 == 0 {
      Divisible100(y);
    }
  }

  lemma DayFromYearStep(y: int)
    ensures DayFromYear(y + 1) == DayFromYear(y) + DaysInYear(y)
  {
  }

  /** Counting the years one by one gives the closed form. */
  lemma {:induction false} DayFromYearIsFormula(y: int)
    ensures DayFromYear(y) == DayFromYearFormula(y)
    decreases if y < 1970 then 1970 - y else y - 1970
  {
    if y > 1970 {
      DayFromYearIsFormula(y - 1);
      FormulaStep(y - 1);
    } else if y < 1970 {
      DayFromYearIsFormula(y + 1);
      FormulaStep(y);
    }
  }

  /** Later years start at least 365 days per year later. */
  lemma {:induction false} DayFromYearMonotone(a: int, b: int)
    requires a <= b
    ensures DayFromYear(a) + 365 * (b - a) <= DayFromYear(b)
    decreases b - a
  {
    if a < b {
      DayFromYearMonotone(a, b - 1);
      DayFromYearStep(b - 1);
    }
  }

  /** The day numbers of January 1st of years 0 and 100. */
  const Year0Start: int := -719528
  const Year100Start: int := -683003

  lemma YearStarts(y: int)
    ensures y == 0 ==> DayFromYear(y) == Year0Start
    ensures y == 100 ==> DayFromYear(y) == Year100Start
  {
    DayFromYearIsFormula(y);
    if y == 0 {
      assert DayFromYearFormula(y) == Year0Start;
    }
    if y == 100 {
      assert DayFromYearFormula(y) == Year100Start;
    }
  }

  /** Walks from year `y` to the year whose days contain day number `n`. */
  function YearFromDaySearch(n: int, y: int): (r: int)
    ensures DayFromYear(r) <= n < DayFromYear(r + 1)
    decreases if n < DayFromYear(y) then 1 else 0,
              if n < DayFromYear(y) then DayFromYear(y) - n else n - DayFromYear(y)
  {
    DayFromYearStep(y - 1);
    DayFromYearStep(y);
    if n < DayFromYear(y) then YearFromDaySearch(n, y - 1)
    else if DayFromYear(y + 1) <= n then YearFromDaySearch(n, y + 1)
    else y
  }

  /** The year day number `n` falls in. */
  function YearFromDay(n: int): int {
    YearFromDaySearch(n, 1970)
  }

  /** Exactly one year's days contain a given day number. */
  lemma YearFromDayUnique(n: int, y: int)
    requires DayFromYear(y) <= n < DayFromYear(y + 1)
    ensures YearFromDay(n) == y
  {
    var r := YearFromDay(n);
    if r < y {
      DayFromYearMonotone(r + 1, y);
    } else if y < r {
      DayFromYearMonotone(y + 1, r);
    }
  }

  /** YearFromTime(t). */
  function YearFromTime(t: int): int {
    YearFromDay(Day(t))
  }

  /** DayWithinYear(t): 0 for January 1st. */
  function DayWithinYear(t: int): (d: int)
    ensures 0 <= d < DaysInYear(YearFromTime(t))
  {
    DayFromYearStep(YearFromTime(t));
    Day(t) - DayFromYear(YearFromTime(t))
  }

  // ---------------------------------------------------------------------------
  // Months and dates (ECMA-262 21.4.1.9 to 21.4.1.11)
  // ---------------------------------------------------------------------------

  /** Days in the months before month index `mi` (0 is January) of a common year. */
  function CommonDaysBefore(mi: int): int
    requires 0 <= mi <= 12
  {
    if mi == 0 then 0 else if mi == 1 then 31 else if mi == 2 then 59
    else if mi == 3 then 90 else if mi == 4 then 120 else if mi == 5 then 151
    else if mi == 6 then 181 else if mi == 7 then 212 else if mi == 8 then 243
    else if mi == 9 then 273 else if mi == 10 then 304 else if mi == 11 then 334
    else 365
  }

  /** Days in the months before month index `mi`, with February's extra day in a leap year. */
  function DaysBeforeMonth(mi: int, leap: bool): int
    requires 0 <= mi <= 12
  {
    CommonDaysBefore(mi) + if leap && mi >= 2 then 1 else 0
  }

  /** The month index a day of the year falls in: MonthFromTime's table. */
  function MonthFromDayInYear(d: int, leap: bool): (mi: int)
    requires 0 <= d < if leap then 366 else 365
    ensures 0 <= mi < 12
    ensures DaysBeforeMonth(mi, leap) <= d < DaysBeforeMonth(mi + 1, leap)
  {
    var l := if leap then 1 else 0;
    if d < 31 then 0 else if d < 59 + l then 1 else if d < 90 + l then 2
    else if d < 120 + l then 3 else if d < 151 + l then 4 else if d < 181 + l then 5
    else if d < 212 + l then 6 else if d < 243 + l then 7 else if d < 273 + l then 8
    else if d < 304 + l then 9 else if d < 334 + l then 10 else 11
  }

  /** MonthFromTime(t): 0 for January. */
  function MonthFromTime(t: int): (mi: int)
    ensures 0 <= mi < 12
  {
    MonthFromDayInYear(DayWithinYear(t), IsLeapYear(YearFromTime(t)))
  }

  /** DateFromTime(t): the day of the month, from 1. */
  function DateFromTime(t: int): (date: int)
    ensures 1 <= date
  {
    DayWithinYear(t) - DaysBeforeMonth(MonthFromTime(t), IsLeapYear(YearFromTime(t))) + 1
  }

  /** WeekDay(t): 0 is Sunday; day 0 (1970-01-01) was a Thursday. */
  function WeekDay(t: int): (w: int)
    ensures 0 <= w < 7
  {
    (Day(t) + 4) % 7
  }

  function HourFromTime(t: int): int {
    (t / MsPerHour) % 24
  }

  function MinFromTime(t: int): int {
    (t / MsPerMinute) % 60
  }

  // ---------------------------------------------------------------------------
  // Building time values (ECMA-262 21.4.1.27 to 21.4.1.29, 21.4.3.4)
  // ---------------------------------------------------------------------------

  /** MakeTime(hour, min, sec, ms), with no range restriction on the fields. */
  function MakeTime(hour: int, min: int, sec: int, ms: int): int {
    hour * MsPerHour + min * MsPerMinute + sec * MsPerSecond + ms
  }

  /** MakeDay(year, month, date): the day number of `date` in month index
      `month` of `year`; a month index outside 0..11 carries into the year and
      a date outside the month carries into the following or previous months. */
  function MakeDay(year: int, month: int, date: int): int {
    var ym := year + month / 12;
    var mn := month % 12;
    DayFromYear(ym) + DaysBeforeMonth(mn, IsLeapYear(ym)) + date - 1
  }

  /** MakeDate(day, time). */
  function MakeDate(day: int, time: int): int {
    day * MsPerDay + time
  }

  /** `Date.UTC(year, month, date, hours, minutes, seconds)`: a year from 0 to 99
      means 1900 to 1999. The clipping of results beyond 8.64e15 is not modelled. */
  function DateUtc(year: int, month: int, date: int, hours: int, minutes: int, seconds: int): int {
    var yr := if 0 <= year <= 99 then 1900 + year else year;
    MakeDate(MakeDay(yr, month, date), MakeTime(hours, minutes, seconds, 0))
  }

  /** `d.setUTCDate(date)` on a date whose time value is `t`: the new time value. */
  function SetUtcDate(t: int, date: int): int {
    MakeDate(MakeDay(YearFromTime(t), MonthFromTime(t), date), TimeWithinDay(t))
  }

  // ---------------------------------------------------------------------------
  // The civil calendar
  // ---------------------------------------------------------------------------

  /** A calendar date: `month` from 1 to 12, `day` from 1. */
  datatype Date = Date(year: int, month: int, day: int)

  function DaysInMonth(year: int, month: int): int
    requires 1 <= month <= 12
  {
    if month == 2 then (if IsLeapYear(year) then 29 else 28)
    else if month == 4 || month == 6 || month == 9 || month == 11 then 30
    else 31
  }

  predicate ValidDate(d: Date) {
    1 <= d.month <= 12 && 1 <= d.day <= DaysInMonth(d.year, d.month)
  }

  /** The following calendar day: the month and the year roll over at their ends. */
  function NextDate(d: Date): (r: Date)
    requires ValidDate(d)
    ensures ValidDate(r)
  {
    if d.day < DaysInMonth(d.year, d.month) then Date(d.year, d.month, d.day + 1)
    else if d.month < 12 then Date(d.year, d.month + 1, 1)
    else Date(d.year + 1, 1, 1)
  }

  /** The day number of a date. */
  function DayNumber(d: Date): int
    requires 1 <= d.month <= 12
  {
    DayFromYear(d.year) + DaysBeforeMonth(d.month - 1, IsLeapYear(d.year)) + d.day - 1
  }

  /** The date of day number `n`: its year, month and day of month read the way
      YearFromTime, MonthFromTime and DateFromTime read them. */
  function DateOfDay(n: int): Date {
    var y := YearFromDay(n);
    DayFromYearStep(y);
    var leap := IsLeapYear(y);
    var doy := n - DayFromYear(y);
    var mi := MonthFromDayInYear(doy, leap);
    Date(y, mi + 1, doy - DaysBeforeMonth(mi, leap) + 1)
  }

  /** The table of cumulative month lengths agrees with the month lengths. */
  lemma DaysBeforeMonthStep(year: int, month: int)
    requires 1 <= month <= 12
    ensures DaysBeforeMonth(month, IsLeapYear(year))
         == DaysBeforeMonth(month - 1, IsLeapYear(year)) + DaysInMonth(year, month)
  {
  }

  /** The fields of a time value are the date of its day number. */
  lemma DateOfTime(t: int)
    ensures DateOfDay(Day(t)) == Date(YearFromTime(t), MonthFromTime(t) + 1, DateFromTime(t))
  {
  }

  /** Every day number names a valid date, and that date numbers back to it. */
  lemma DateOfDayInverse(n: int)
    ensures ValidDate(DateOfDay(n))
    ensures DayNumber(DateOfDay(n)) == n
  {
    var d := DateOfDay(n);
    DaysBeforeMonthStep(d.year, d.month);
  }

  /** A valid date is the date of its own day number. */
  lemma DayNumberInverse(d: Date)
    requires ValidDate(d)
    ensures DateOfDay(DayNumber(d)) == d
  {
    var n := DayNumber(d);
    var leap := IsLeapYear(d.year);
    var doy := n - DayFromYear(d.year);
    DaysBeforeMonthStep(d.year, d.month);
    DaysBeforeMonthBound(d.month, leap);
    DayFromYearStep(d.year);
    YearFromDayUnique(n, d.year);
    MonthFromDayInYearUnique(doy, leap, d.month - 1);
  }

  /** The weekday advances by one, modulo seven, from one day to the next. */
  lemma WeekDayNext(t: int)
    ensures WeekDay(t + MsPerDay) == (WeekDay(t) + 1) % 7
  {
    assert Day(t + MsPerDay) == Day(t) + 1;
  }

  /** The first instant of day `n` falls on day `n`, four weekdays on from
      day 0. */
  lemma WeekDayOfDay(n: int)
    ensures Day(n * MsPerDay) == n
    ensures WeekDay(n * MsPerDay) == (n + 4) % 7
  {
  }

  /** 1970-01-01, day number 0, was a Thursday. */
  lemma EpochIsThursday(d: Date)
    requires d == Date(1970, 1, 1)
    ensures DayNumber(d) == 0 && WeekDay(DayNumber(d) * MsPerDay) == 4
  {
  }

  /** 2026-10-14 is day number 20740, a Wednesday. */
  lemma KnownWednesday(d: Date)
    requires d == Date(2026, 10, 14)
    ensures ValidDate(d) && DayNumber(d) == 20740
    ensures DateOfDay(20740) == d
    ensures WeekDay(20740 * MsPerDay) == 3
  {
    assert DayNumber(d) == 20740 by {
      Year2026Start(d.year);
    }
    DayNumberInverse(d);
    WednesdayDay(20740);
  }

  lemma WednesdayDay(n: int)
    requires n == 20740
    ensures WeekDay(n * MsPerDay) == 3
  {
    WeekDayOfDay(n);
  }

  /** January 1st 2026 is day number 20454. */
  lemma Year2026Start(y: int)
    requires y == 2026
    ensures DayFromYear(y) == 20454
  {
    DayFromYearIsFormula(y);
  }

  lemma DaysBeforeMonthBound(month: int, leap: bool)
    requires 0 <= month <= 12
    ensures DaysBeforeMonth(month, leap) <= DaysBeforeMonth(12, leap) == if leap then 366 else 365
  {
  }

  /** Only one month's days contain a given day of the year. */
  lemma MonthFromDayInYearUnique(d: int, leap: bool, mi: int)
    requires 0 <= mi < 12
    requires DaysBeforeMonth(mi, leap) <= d < DaysBeforeMonth(mi + 1, leap)
    ensures 0 <= d < (if leap then 366 else 365)
    ensures MonthFromDayInYear(d, leap) == mi
  {
    DaysBeforeMonthBound(mi + 1, leap);
  }

  /** The day after a date has the next day number. */
  lemma NextDateDayNumber(d: Date)
    requires ValidDate(d)
    ensures DayNumber(NextDate(d)) == DayNumber(d) + 1
  {
    DaysBeforeMonthStep(d.year, d.month);
    if d.day == DaysInMonth(d.year, d.month) && d.month == 12 {
      DayFromYearStep(d.year);
    }
  }

  /** Counting one day on from a date gives the calendar's next date. */
  lemma NextDayIsNextDate(d: Date)
    requires ValidDate(d)
    ensures DateOfDay(DayNumber(d) + 1) == NextDate(d)
  {
    NextDateDayNumber(d);
    DayNumberInverse(NextDate(d));
  }

  /** MakeDay with a month index in range is the day number of the date. */
  lemma MakeDayOfDate(d: Date)
    requires 1 <= d.month <= 12
    ensures MakeDay(d.year, d.month - 1, d.day) == DayNumber(d)
  {
    assert (d.month - 1) / 12 == 0 && (d.month - 1) % 12 == d.month - 1;
  }

  /** `setUTCDate(getUTCDate() + 1)` moves a time value on by exactly one day,
      whatever the month it is in. */
  lemma SetUtcDateNextDay(t: int)
    ensures SetUtcDate(t, DateFromTime(t) + 1) == t + MsPerDay
  {
    DateOfTime(t);
    DateOfDayInverse(Day(t));
    assert MakeDay(YearFromTime(t), MonthFromTime(t), DateFromTime(t) + 1) == Day(t) + 1;
  }

  /** A day made from a month index of -1 or more and a date of 0 or more is
      no earlier than the start of the previous year. */
  lemma MakeDayLowerBound(year: int, month: int, date: int)
    requires month >= -1 && date >= 0
    ensures DayFromYear(year - 1) <= MakeDay(year, month, date)
  {
    var ym := year + month / 12;
    if month >= 0 {
      DayFromYearMonotone(year - 1, ym);
    } else {
      assert ym == year - 1 && month % 12 == 11;
    }
  }

  /** A day number at or after the first day of year `y` falls in year `y` or later. */
  lemma YearFromDayLowerBound(n: int, y: int)
    requires DayFromYear(y) <= n
    ensures y <= YearFromDay(n)
  {
    var r := YearFromDay(n);
    if r < y {
      DayFromYearMonotone(r + 1, y);
    }
  }

  /** Day numbers from January 1st of year 0 on fall in year 0 or later. */
  lemma YearFromDayNonNegative(n: int)
    requires Year0Start <= n
    ensures 0 <= YearFromDay(n)
  {
    var y := 0;
    YearStarts(y);
    YearFromDayLowerBound(n, y);
  }

  /** Day numbers from January 1st of year 100 on fall in year 100 or later. */
  lemma YearFromDayAtLeast100(n: int)
    requires Year100Start <= n
    ensures 100 <= YearFromDay(n)
  {
    var y := 100;
    YearStarts(y);
    YearFromDayLowerBound(n, y);
  }

  /** `Date.UTC` on a valid date of year 100 or later (the years `Date.UTC`
      takes as written) is the date's day number in milliseconds plus the
      time of day, whatever the range of the hours and minutes. */
  lemma DateUtcOfDate(d: Date, hours: int, minutes: int)
    ensures ValidDate(d) && d.year >= 100 ==>
      DateUtc(d.year, d.month - 1, d.day, hours, minutes, 0)
        == DayNumber(d) * MsPerDay + hours * MsPerHour + minutes * MsPerMinute
  {
    if ValidDate(d) && d.year >= 100 {
      MakeDayOfDate(d);
    }
  }

  /** A time value inside day `n` falls on day `n`. */
  lemma DayOfInstant(t: int, n: int)
    requires n * MsPerDay <= t < (n + 1) * MsPerDay
    ensures Day(t) == n
  {
  }

  /** A time value made of a day number and a time of day splits back into them. */
  lemma TimeFields(t: int, n: int, hour: int, min: int)
    requires 0 <= hour < 24 && 0 <= min < 60
    requires t == n * MsPerDay + hour * MsPerHour + min * MsPerMinute
    ensures Day(t) == n && HourFromTime(t) == hour && MinFromTime(t) == min
  {
    assert t / MsPerHour == n * 24 + hour;
    assert t / MsPerMinute == n * 1440 + hour * 60 + min;
  }
}

=== FILE: feed.dfy ===
/**
 * The background worker's feed check: pick the newest long-form video from the
 * channel's Atom feed, and raise one notification per new video.
 *
 * The feed is given as the entries already pulled out of its XML text, in
 * feed order (newest first); each field is `None` when its pattern did not
 * match. Fetching is an input: `None` stands for a failed request.
 */
module FeedChecker {
  import opened Wrappers
  import opened Text
  import opened Settings

  // ---------------------------------------------------------------------------
  // Entries
  // ---------------------------------------------------------------------------

  /** One `<entry>` of the feed: the `<yt:videoId>` text, the `href` of its
      `rel="alternate"` link and the `<title>` text. */
  datatype Entry = Entry(videoId: Option<string>, href: Option<string>, title: Option<string>)

  /** A JavaScript string value that is truthy: present and not empty. */
  predicate Truthy(s: Option<string>) {
    s.Some? && s.value != ""
  }

  /** `title || ""`. */
  function TitleOf(e: Entry): string {
    if Truthy(e.title) then e.title.value else ""
  }

  // ---------------------------------------------------------------------------
  // Shorts
  // ---------------------------------------------------------------------------

  const ShortsPath: string := "/shorts/"
  const HashShorts: string := "#shorts"
  const ShortsWord: string := "shorts"

  /** `/\/shorts\//i.test(href)`. */
  predicate IsShortByUrl(href: string) {
    exists i :: 0 <= i <= |href| - |ShortsPath| && FoldOccursAt(href, ShortsPath, i)
  }

  /** `/#shorts\b/i` matches at index `i`. */
  predicate HashShortsAt(title: string, i: int) {
    FoldOccursAt(title, HashShorts, i) && WordBoundary(title, i + |HashShorts|)
  }

  /** `/\bshorts\b/i` matches at index `i`. */
  predicate ShortsWordAt(title: string, i: int) {
    && FoldOccursAt(title, ShortsWord, i)
    && WordBoundary(title, i) && WordBoundary(title, i + |ShortsWord|)
  }

  /** `/#shorts\b/i.test(title) || /\bshorts\b/i.test(title)`. */
  predicate IsShortByTitle(title: string) {
    || (exists i :: 0 <= i <= |title| && HashShortsAt(title, i))
    || (exists i :: 0 <= i <= |title| && ShortsWordAt(title, i))
  }

  /** A character that folds onto a character other than a lower-case letter
      is that character. */
  lemma FoldsOntoItself(c: char, d: char)
    requires !('a' <= d <= 'z') && !('A' <= d <= 'Z')
    ensures AsciiUpper(c) == AsciiUpper(d) <==> c == d
  {
  }

  /** Wherever `#shorts\b` matches, `\bshorts\b` matches one character on: the
      `#` is no word character and the `s` is one. */
  lemma HashShortsIsShortsWord(title: string, i: int)
    requires HashShortsAt(title, i)
    ensures 0 <= i + 1 <= |title| && ShortsWordAt(title, i + 1)
  {
    assert AsciiUpper(title[i + 0]) == AsciiUpper(HashShorts[0]) && HashShorts[0] == '#';
    FoldsOntoItself(title[i], '#');
    assert AsciiUpper(title[i + 1]) == AsciiUpper(HashShorts[1]) && HashShorts[1] == 's';
    assert IsWordChar(AsciiUpper(title[i + 1]));
    assert forall k :: 0 <= k < |ShortsWord| ==> AsciiUpper(title[i + 1 + k]) == AsciiUpper(ShortsWord[k]) by {
      forall k | 0 <= k < |ShortsWord|
        ensures AsciiUpper(title[i + 1 + k]) == AsciiUpper(ShortsWord[k])
      {
        assert ShortsWord[k] == HashShorts[k + 1];
      }
    }
  }

  /** So the title test is the `\bshorts\b` test alone. */
  lemma TitleTestIsShortsWord(title: string)
    ensures IsShortByTitle(title) <==> exists i :: 0 <= i <= |title| && ShortsWordAt(title, i)
  {
    if exists i :: 0 <= i <= |title| && HashShortsAt(title, i) {
      var i :| 0 <= i <= |title| && HashShortsAt(title, i);
      HashShortsIsShortsWord(title, i);
    }
  }

  // ---------------------------------------------------------------------------
  // Selecting the latest long-form video
  // ---------------------------------------------------------------------------

  /** An entry the scan stops at: it has a video id and a link, and neither
      the link nor the title marks it as a Short. */
  predicate Eligible(e: Entry) {
    && Truthy(e.videoId) && Truthy(e.href)
    && !IsShortByUrl(e.href.value) && !IsShortByTitle(TitleOf(e))
  }

  const WatchPath: string := "/watch"
  const WatchPrefix: string := "https://www.youtube.com/watch?v="

  /** The link itself when it contains `/watch`, otherwise the watch page of
      the video id. */
  function WatchUrl(videoId: string, href: string): (url: string)
    ensures Contains(url, WatchPath)
    ensures Contains(href, WatchPath) ==> url == href
    ensures !Contains(href, WatchPath) ==> StartsWith(url, WatchPrefix) && url[|WatchPrefix|..] == videoId
  {
    if Contains(href, WatchPath) then href
    else
      var url := WatchPrefix + videoId;
      assert OccursAt(url, WatchPath, 23) by {
        assert url[23..29] == WatchPrefix[23..29];
      }
      url
  }

  /** What `fetchLatestViaRss` returns for the video it picks. */
  datatype Latest = Latest(videoId: string, title: string, url: string)

  function LatestOf(e: Entry): Latest
    requires Eligible(e)
  {
    Latest(e.videoId.value, TitleOf(e), WatchUrl(e.videoId.value, e.href.value))
  }

  /** The scan over the entries in feed order: the first eligible entry, or
      `None` (`null`) when there is none. */
  function SelectLatest(entries: seq<Entry>): Option<Latest>
    decreases |entries|
  {
    if |entries| == 0 then None
    else if Eligible(entries[0]) then Some(LatestOf(entries[0]))
    else SelectLatest(entries[1..])
  }

  /** The scan finds nothing exactly when no entry is eligible. */
  lemma {:induction false} SelectLatestNone(entries: seq<Entry>)
    ensures SelectLatest(entries).None? <==> forall i :: 0 <= i < |entries| ==> !Eligible(entries[i])
    decreases |entries|
  {
    if |entries| > 0 {
      SelectLatestNone(entries[1..]);
      assert forall i :: 0 < i < |entries| ==> entries[i] == entries[1..][i - 1];
    }
  }

  /** The scan returns the first eligible entry: its id and title, and its
      link made a watch link. */
  lemma {:induction false} SelectLatestFirst(entries: seq<Entry>, i: int)
    requires 0 <= i < |entries| && Eligible(entries[i])
    requires forall j :: 0 <= j < i ==> !Eligible(entries[j])
    ensures SelectLatest(entries) == Some(LatestOf(entries[i]))
    decreases i
  {
    if i > 0 {
      assert !Eligible(entries[0]);
      assert forall j :: 0 <= j < i - 1 ==> entries[1..][j] == entries[j + 1];
      SelectLatestFirst(entries[1..], i - 1);
    }
  }

  /** Whatever the scan returns links to a watch page. */
  lemma {:induction false} SelectLatestWatchUrl(entries: seq<Entry>)
    ensures SelectLatest(entries).Some? ==> Contains(SelectLatest(entries).value.url, WatchPath)
    decreases |entries|
  {
    if |entries| > 0 && !Eligible(entries[0]) {
      SelectLatestWatchUrl(entries[1..]);
    }
  }

  // ---------------------------------------------------------------------------
  // Deduplication and the notification
  // ---------------------------------------------------------------------------

  /** The persisted `state` object: the id of the last video notified and the
      other fields, which the check carries along untouched. */
  datatype State = State(lastVideoId: Option<string>, others: map<string, string>)

  const NotificationTitle: string := "新しい動画が公開されました"
  const FallbackMessage: string := "YouTube 新着"
  const OpenButton: string := "今すぐ開く"
  const LaterButton: string := "あとで"

  /** A notification and the page its first button opens. */
  datatype Notification = Notification(id: string, title: string, message: string,
                                       buttons: seq<string>, url: string)

  /** `new-${videoId}`. */
  function NotificationId(videoId: string): (id: string)
    ensures StartsWith(id, "new-") && id[4..] == videoId
  {
    "new-" + videoId
  }

  function NotificationFor(latest: Latest): Notification {
    Notification(NotificationId(latest.videoId), NotificationTitle,
                 if latest.title != "" then latest.title else FallbackMessage,
                 [OpenButton, LaterButton], latest.url)
  }

  /** What a check leaves: the notification raised, if any, and the state
      written back. */
  datatype Outcome = Outcome(notification: Option<Notification>, state: State)

  /** `checkLatestAndNotify()`: `fetched` is the feed's entries, `None` when
      the request failed; `created` is whether `chrome.notifications.create`
      succeeds if it is called. When it fails the function stops there, so
      the state is not written and the video is tried again next time. */
  function CheckLatestAndNotify(cfg: Config, fetched: Option<seq<Entry>>, st: State, created: bool): Outcome {
    if !Truthy(cfg.channelId) then Outcome(None, st)
    else if fetched.None? then Outcome(None, st)
    else
      match SelectLatest(fetched.value)
      case None => Outcome(None, st)
      case Some(latest) =>
        if st.lastVideoId == Some(latest.videoId) then Outcome(None, st)
        else if !created then Outcome(None, st)
        else Outcome(Some(NotificationFor(latest)), st.(lastVideoId := Some(latest.videoId)))
  }

  /** No notification and no change to the state when no channel is set, the
      request fails, no entry is eligible, or the latest video is the one
      notified last. */
  lemma CheckSilentCases(cfg: Config, fetched: Option<seq<Entry>>, st: State, created: bool)
    requires
      || !Truthy(cfg.channelId)
      || fetched.None?
      || (forall i :: 0 <= i < |fetched.value| ==> !Eligible(fetched.value[i]))
      || (SelectLatest(fetched.value).Some? && st.lastVideoId == Some(SelectLatest(fetched.value).value.videoId))
    ensures CheckLatestAndNotify(cfg, fetched, st, created) == Outcome(None, st)
  {
    if Truthy(cfg.channelId) && fetched.Some? {
      SelectLatestNone(fetched.value);
    }
  }

  /** Otherwise, if the notification is created, exactly one notification,
      named after the video, is raised: its message is the title, or the
      fallback for an empty title, and its first button opens the watch link.
      The state records the video and keeps its other fields. */
  lemma CheckNotifies(cfg: Config, entries: seq<Entry>, st: State, i: int)
    requires Truthy(cfg.channelId)
    requires 0 <= i < |entries| && Eligible(entries[i])
    requires forall j :: 0 <= j < i ==> !Eligible(entries[j])
    requires st.lastVideoId != entries[i].videoId
    ensures var o := CheckLatestAndNotify(cfg, Some(entries), st, true);
      var e := entries[i];
      && o.notification.Some?
      && o.notification.value.id == NotificationId(e.videoId.value)
      && o.notification.value.title == NotificationTitle
      && o.notification.value.message == (if TitleOf(e) != "" then TitleOf(e) else FallbackMessage)
      && o.notification.value.buttons == [OpenButton, LaterButton]
      && o.notification.value.url == WatchUrl(e.videoId.value, e.href.value)
      && o.state == State(e.videoId, st.others)
  {
    SelectLatestFirst(entries, i);
  }

  /** A state is written back only together with a notification: a check
      either raises one and records its video, or leaves the state as it was. */
  lemma StateAdvancesOnlyWithNotification(cfg: Config, fetched: Option<seq<Entry>>, st: State, created: bool)
    ensures var o := CheckLatestAndNotify(cfg, fetched, st, created);
      && (o.notification.None? <==> o.state == st)
      && (o.notification.Some? ==> created && o.state.lastVideoId == Some(o.notification.value.id[4..]))
  {
    var o := CheckLatestAndNotify(cfg, fetched, st, created);
    if o.notification.Some? {
      var latest := SelectLatest(fetched.value).value;
      assert o.notification.value.id == NotificationId(latest.videoId);
      assert o.state.lastVideoId != st.lastVideoId;
    }
  }

  /** When creating the notification fails, the next check with the same feed
      and a working `create` raises it: the failure is not recorded as a
      notified video. */
  lemma FailedNotificationRetried(cfg: Config, fetched: Option<seq<Entry>>, st: State)
    ensures var first := CheckLatestAndNotify(cfg, fetched, st, false);
      && first == Outcome(None, st)
      && CheckLatestAndNotify(cfg, fetched, first.state, true) == CheckLatestAndNotify(cfg, fetched, st, true)
  {
  }

  /** The same check run again on the state a successful check wrote back is
      silent, whether or not a notification could be created then. */
  lemma SecondCheckSilent(cfg: Config, fetched: Option<seq<Entry>>, st: State, again: bool)
    ensures var first := CheckLatestAndNotify(cfg, fetched, st, true);
      CheckLatestAndNotify(cfg, fetched, first.state, again) == Outcome(None, first.state)
  {
    var first := CheckLatestAndNotify(cfg, fetched, st, true);
    if Truthy(cfg.channelId) && fetched.Some? && SelectLatest(fetched.value).Some? {
      assert first.state.lastVideoId == Some(SelectLatest(fetched.value).value.videoId);
    }
  }

  // ---------------------------------------------------------------------------
  // Overlapping checks
  // ---------------------------------------------------------------------------

  /** Two checks started together, as two `check-` alarms that fire at once
      after a sleep (`onAlarm` does not await the check): both read the state
      before either writes it back. */
  function OverlappingChecks(cfg: Config, fetched: Option<seq<Entry>>, st: State): (runs: (Outcome, Outcome))
    ensures runs.0 == runs.1
    ensures runs.0.notification.None? <==> runs.0.state == st
  {
    StateAdvancesOnlyWithNotification(cfg, fetched, st, true);
    var o := CheckLatestAndNotify(cfg, fetched, st, true);
    (o, o)
  }

  /** Two checks run one after the other: the second reads what the first
      wrote, so it raises nothing and leaves that state as it is. */
  function SerialChecks(cfg: Config, fetched: Option<seq<Entry>>, st: State): (runs: (Outcome, Outcome))
    ensures runs.1 == Outcome(None, runs.0.state)
  {
    SecondCheckSilent(cfg, fetched, st, true);
    var first := CheckLatestAndNotify(cfg, fetched, st, true);
    (first, CheckLatestAndNotify(cfg, fetched, first.state, true))
  }

  /** As written, overlapping checks of a new video both pass the
      `lastVideoId` test: both raise the same notification and both register
      a click listener for it, so its first button opens the video twice. */
  lemma OverlappingChecksNotifyTwice(cfg: Config, entries: seq<Entry>, st: State, i: int)
    requires Truthy(cfg.channelId)
    requires 0 <= i < |entries| && Eligible(entries[i])
    requires forall j :: 0 <= j < i ==> !Eligible(entries[j])
    requires st.lastVideoId != entries[i].videoId
    ensures var runs := OverlappingChecks(cfg, Some(entries), st);
      && runs.0.notification.Some? && runs.1.notification.Some?
      && runs.0.notification == runs.1.notification
      && var n := runs.0.notification.value;
         && OnButtonClicked(n, n.id, 0).open.Some?
         && OnButtonClicked(runs.1.notification.value, n.id, 0).open.Some?
  {
    CheckNotifies(cfg, entries, st, i);
  }

  /** Run one after the other, two checks raise at most one notification, and
      exactly one for a new video. */
  lemma SerialChecksNotifyOnce(cfg: Config, entries: seq<Entry>, st: State)
    ensures var runs := SerialChecks(cfg, Some(entries), st);
      && runs.1.notification.None?
      && (runs.0.notification.Some? <==>
            Truthy(cfg.channelId) && SelectLatest(entries).Some?
            && st.lastVideoId != Some(SelectLatest(entries).value.videoId))
  {
    SecondCheckSilent(cfg, Some(entries), st, true);
  }

  // ---------------------------------------------------------------------------
  // Button clicks
  // ---------------------------------------------------------------------------

  /** What the click listener does: the page it opens, if any, whether it
      clears the notification and whether it removes itself. */
  datatype ClickEffect = ClickEffect(open: Option<string>, clear: bool, unsubscribe: bool)

  /** The `onButtonClicked` listener registered for notification `n`, called
      with notification `id` and button index `button`. */
  function OnButtonClicked(n: Notification, id: string, button: int): ClickEffect {
    if id != n.id then ClickEffect(None, false, false)
    else ClickEffect(if button == 0 then Some(n.url) else None, true, true)
  }

  /** A click on another notification does nothing; a click on this one
      clears it and removes the listener, and only the first button opens the
      video's watch page. */
  lemma ClickSpec(latest: Latest, id: string, button: int)
    ensures var n := NotificationFor(latest);
      var c := OnButtonClicked(n, id, button);
      && (id != NotificationId(latest.videoId) ==> c == ClickEffect(None, false, false))
      && (id == NotificationId(latest.videoId) ==>
            c.clear && c.unsubscribe && (c.open.Some? <==> button == 0)
            && (c.open.Some? ==> c.open.value == latest.url))
  {
  }
}

=== FILE: nearend.dfy ===
/** The content script's near-end detector: a small state machine over
    `(videoId, notified)` that sends one "near end" message per video when
    fewer than 45 seconds of a video longer than a minute remain. Playback
    positions are reals; a duration is either a finite number of seconds or
    not finite (NaN or infinity). */
module NearEnd {
  import opened Wrappers

  /** Seconds before the end at which the message goes out. */
  const Threshold: real := 45.0
  /** Videos at most this long (in seconds) are never reported. */
  const MinDuration: real := 60.0

  datatype Duration = Finite(seconds: real) | NotFinite

  /** The video element as far as the detector reads it. */
  datatype Video = Video(duration: Duration, currentTime: real, readyState: int)

  /** The tracked identity and whether it has already been reported. */
  datatype Session = Session(videoId: Option<string>, notified: bool)

  /** The `NEAR_END_NOTIFY` runtime message and the id it carries. */
  datatype Message = NearEndNotify(videoId: Option<string>)

  /** A fresh page: the id read from the address, not yet reported. */
  function Start(videoId: Option<string>): (s: Session)
    ensures s.videoId == videoId && !s.notified
  {
    Session(videoId, false)
  }

  /** `isFiniteDuration`: a finite, positive duration. */
  predicate IsFiniteDuration(d: Duration) {
    d.Finite? && d.seconds > 0.0
  }

  datatype Step = Step(session: Session, message: Option<Message>)

  /** The `check` callback, run on every playback event and every poll:
      a video with a finite positive duration above the minimum, not yet
      reported, whose remaining time is positive and at most the threshold,
      is reported once. */
  function Check(s: Session, d: Duration, currentTime: real): (r: Step)
    ensures r.message.Some? <==>
      !s.notified && d.Finite? && d.seconds > MinDuration &&
      d.seconds - Threshold <= currentTime < d.seconds
    ensures r.message.Some? ==> r.message.value == NearEndNotify(s.videoId)
    ensures r.session.videoId == s.videoId
    ensures r.session.notified <==> s.notified || r.message.Some?
  {
    if !IsFiniteDuration(d) then Step(s, None)
    else if d.seconds <= MinDuration then Step(s, None)
    else
      var remain := d.seconds - currentTime;
      if !s.notified && remain > 0.0 && remain <= Threshold then
        Step(Session(s.videoId, true), Some(NearEndNotify(s.videoId)))
      else Step(s, None)
  }

  /** The page observer: a different id starts a new, unreported session;
      the same id leaves the session alone. */
  function Observe(s: Session, newId: Option<string>): (r: Session)
    ensures newId != s.videoId ==> r == Start(newId)
    ensures newId == s.videoId ==> r == s
    ensures r.videoId == newId
  {
    if newId != s.videoId then Session(newId, false) else s
  }

  /** `tryAttach`: watching starts once a video element exists whose duration
      is known to be finite and positive or whose media has started loading. */
  function TryAttach(v: Option<Video>): (attach: bool)
    ensures attach <==> v.Some? && (IsFiniteDuration(v.value.duration) || v.value.readyState > 0)
    ensures attach && v.value.readyState <= 0 ==> v.value.duration.Finite?
  {
    match v
    case None => false
    case Some(video) => IsFiniteDuration(video.duration) || video.readyState > 0
  }

  /** `waitAndAttach`: the element found at each successive try (the first
      call, then the interval and the mutation observer); watching first
      starts at the first try that `tryAttach` accepts. If the interval
      accepts first, only the interval stops: the observer can attach once
      more within its 15 s, adding listeners that share the one session. */
  function AttachAt(tries: seq<Option<Video>>): (i: Option<nat>)
    ensures i.Some? ==> i.value < |tries| && TryAttach(tries[i.value])
    ensures i.Some? ==> forall j :: 0 <= j < i.value ==> !TryAttach(tries[j])
    ensures i.None? <==> forall j :: 0 <= j < |tries| ==> !TryAttach(tries[j])
    decreases |tries|
  {
    if |tries| == 0 then None
    else if TryAttach(tries[0]) then Some(0)
    else match AttachAt(tries[1..])
      case None => None
      case Some(k) => Some(k + 1)
  }

  /** `tryAttach` accepts every video the detector could report: a reported
      video has a finite duration above the minimum, so it is never skipped
      for want of loaded media. A video accepted only because its media
      started loading, with no finite duration, is never reported. */
  lemma ReportableIsAttachable(s: Session, v: Video)
    ensures Check(s, v.duration, v.currentTime).message.Some? ==> TryAttach(Some(v))
    ensures TryAttach(Some(v)) && !IsFiniteDuration(v.duration) ==>
      Check(s, v.duration, v.currentTime).message.None?
  {
  }

  // ---------------------------------------------------------------------------
  // Traces of callbacks
  // ---------------------------------------------------------------------------

  /** One callback invocation: a `check` with the video's current duration
      and position, or the observer seeing the address's id. */
  datatype Event = Tick(duration: Duration, currentTime: real) | Observed(newId: Option<string>)

  /** The state after a trace, the messages it sent in order, and how many
      observer calls changed the identity. */
  datatype Run = Run(session: Session, messages: seq<Message>, changes: nat)

  function Replay(s: Session, events: seq<Event>): Run
    decreases |events|
  {
    if |events| == 0 then Run(s, [], 0)
    else match events[0]
      case Tick(d, t) =>
        var step := Check(s, d, t);
        var rest := Replay(step.session, events[1..]);
        Run(rest.session, (if step.message.Some? then [step.message.value] else []) + rest.messages, rest.changes)
      case Observed(id) =>
        var rest := Replay(Observe(s, id), events[1..]);
        Run(rest.session, rest.messages, rest.changes + (if id != s.videoId then 1 else 0))
  }

  /** One unreported identity is worth one message. */
  function Credit(s: Session): nat {
    if s.notified then 0 else 1
  }

  /** Every identity is reported at most once: the messages of a trace, plus
      one if the final identity is still unreported, never exceed one for the
      starting identity (if unreported) plus one per identity change. */
  lemma {:induction false} AtMostOncePerIdentity(s: Session, events: seq<Event>)
    ensures var r := Replay(s, events);
      |r.messages| + Credit(r.session) <= Credit(s) + r.changes
    decreases |events|
  {
    if |events| > 0 {
      match events[0]
      case Tick(d, t) =>
        AtMostOncePerIdentity(Check(s, d, t).session, events[1..]);
      case Observed(id) =>
        AtMostOncePerIdentity(Observe(s, id), events[1..]);
    }
  }

  /** Without an identity change a trace sends at most one message, and none
      at all once the identity has been reported. */
  lemma SameIdentityAtMostOnce(s: Session, events: seq<Event>)
    requires Replay(s, events).changes == 0
    ensures |Replay(s, events).messages| <= Credit(s)
  {
    AtMostOncePerIdentity(s, events);
  }

  /** Every message carries the identity tracked when it was sent: the final
      identity, if the trace changes no identity. */
  lemma {:induction false} MessagesCarryIdentity(s: Session, events: seq<Event>)
    requires Replay(s, events).changes == 0
    ensures forall m :: m in Replay(s, events).messages ==> m == NearEndNotify(s.videoId)
    ensures Replay(s, events).session.videoId == s.videoId
    decreases |events|
  {
    if |events| > 0 {
      match events[0]
      case Tick(d, t) =>
        MessagesCarryIdentity(Check(s, d, t).session, events[1..]);
      case Observed(id) =>
        MessagesCarryIdentity(Observe(s, id), events[1..]);
    }
  }

  /** A video whose duration is never above the minimum is never reported,
      whatever its position and however often the identity changes. */
  lemma {:induction false} ShortVideoSilent(s: Session, events: seq<Event>)
    requires forall i :: 0 <= i < |events| && events[i].Tick? ==>
      !(events[i].duration.Finite? && events[i].duration.seconds > MinDuration)
    ensures Replay(s, events).messages == []
    decreases |events|
  {
    if |events| > 0 {
      match events[0]
      case Tick(d, t) =>
        ShortVideoSilent(Check(s, d, t).session, events[1..]);
      case Observed(id) =>
        ShortVideoSilent(Observe(s, id), events[1..]);
    }
  }

  // ---------------------------------------------------------------------------
  // Concrete traces
  // ---------------------------------------------------------------------------

  /** A 100-second video polled at 50, 56 and 58 seconds is reported exactly
      once, at 56 seconds (44 seconds left). */
  lemma HundredSecondVideo(id: Option<string>, events: seq<Event>)
    requires events == [Tick(Finite(100.0), 50.0), Tick(Finite(100.0), 56.0), Tick(Finite(100.0), 58.0)]
    ensures Replay(Start(id), events).messages == [NearEndNotify(id)]
  {
    var s0 := Start(id);
    var s1 := Check(s0, Finite(100.0), 56.0).session;
    assert Replay(s1, events[2..]).messages == [];
    assert Replay(s0, events[1..]).messages == [NearEndNotify(id)];
  }

  /** A 30-second video is never reported, even in its last seconds. */
  lemma ThirtySecondVideo(id: Option<string>, events: seq<Event>)
    requires events == [Tick(Finite(30.0), 0.0), Tick(Finite(30.0), 10.0), Tick(Finite(30.0), 29.0)]
    ensures Replay(Start(id), events).messages == []
  {
    ShortVideoSilent(Start(id), events);
  }

  /** After video `a` has been reported, navigating to `b` lets `b` be
      reported once, and navigating back to an id already current does not. */
  lemma NextVideoReportedOnce(a: string, b: string, events: seq<Event>)
    requires a != b
    requires events == [Tick(Finite(100.0), 58.0), Observed(Some(b)), Observed(Some(b)),
                        Tick(Finite(100.0), 58.0), Tick(Finite(100.0), 59.0)]
    ensures Replay(Start(Some(a)), events).messages == [NearEndNotify(Some(a)), NearEndNotify(Some(b))]
  {
    var sa := Check(Start(Some(a)), Finite(100.0), 58.0).session;
    var sb := Observe(sa, Some(b));
    assert sb == Start(Some(b));
    var sb2 := Check(sb, Finite(100.0), 58.0).session;
    assert Replay(sb2, events[4..]).messages == [];
    assert Replay(sb, events[3..]).messages == [NearEndNotify(Some(b))];
    assert Replay(sb, events[2..]).messages == [NearEndNotify(Some(b))];
    assert Replay(sa, events[1..]).messages == [NearEndNotify(Some(b))];
  }
}

=== FILE: options.dfy ===
/** The options page: three text fields filled from the stored configuration
    and parsed back into it when saved. Lists are edited as comma-separated
    text. */
module Options {
  import opened Wrappers
  import opened Text
  import opened Settings

  /** The options page's own defaults; its time list differs from the
      background worker's. */
  const PageCheckTimes: seq<string> := ["19:02"]
  const PageWeekdays: seq<int> := [3, 6]
  const PageDefaults: Config := Config(Some(DefaultChannelId), Some(PageCheckTimes), Some(PageWeekdays))

  /** The contents of the three input fields. */
  datatype Form = Form(channelId: string, times: string, days: string)

  // ---------------------------------------------------------------------------
  // Lists as text
  // ---------------------------------------------------------------------------

  /** `xs.map(String)`. */
  function Numerals(xs: seq<int>): (r: seq<string>)
    ensures |r| == |xs|
    ensures forall i :: 0 <= i < |xs| ==> r[i] == IntToString(xs[i])
    decreases |xs|
  {
    if |xs| == 0 then [] else [IntToString(xs[0])] + Numerals(xs[1..])
  }

  /** `parts.map(s => s.trim())`. */
  function TrimEach(parts: seq<string>): (r: seq<string>)
    ensures |r| == |parts|
    ensures forall i :: 0 <= i < |parts| ==> r[i] == Trim(parts[i])
    decreases |parts|
  {
    if |parts| == 0 then [] else [Trim(parts[0])] + TrimEach(parts[1..])
  }

  /** `parts.filter(Boolean)`: the non-empty strings, in their order. */
  function NonEmpty(parts: seq<string>): (r: seq<string>)
    ensures forall i :: 0 <= i < |r| ==> r[i] != ""
    ensures forall x :: x in r ==> x in parts
    ensures (forall i :: 0 <= i < |parts| ==> parts[i] != "") ==> r == parts
    decreases |parts|
  {
    if |parts| == 0 then []
    else if parts[0] == "" then NonEmpty(parts[1..])
    else [parts[0]] + NonEmpty(parts[1..])
  }

  /** `parts.map(s => parseInt(s, 10)).filter(n => !isNaN(n))`: the numbers
      the pieces start with, in order, pieces without one dropped. */
  function Numbers(parts: seq<string>): (r: seq<int>)
    ensures |r| <= |parts|
    ensures (forall i :: 0 <= i < |parts| ==> ParseInt(parts[i]).Some?) ==>
      |r| == |parts| && forall i :: 0 <= i < |parts| ==> r[i] == ParseInt(parts[i]).value
    ensures |parts| == 1 ==> r == if ParseInt(parts[0]).Some? then [ParseInt(parts[0]).value] else []
    decreases |parts|
  {
    if |parts| == 0 then []
    else match ParseInt(parts[0])
      case None => Numbers(parts[1..])
      case Some(n) => [n] + Numbers(parts[1..])
  }

  /** Filtering keeps the order: filtering a concatenation concatenates the
      filtered halves. */
  lemma {:induction false} NonEmptyConcat(a: seq<string>, b: seq<string>)
    ensures NonEmpty(a + b) == NonEmpty(a) + NonEmpty(b)
    decreases |a|
  {
    if |a| > 0 {
      assert (a + b)[1..] == a[1..] + b;
      NonEmptyConcat(a[1..], b);
    } else {
      assert a + b == b;
    }
  }

  lemma {:induction false} NumbersConcat(a: seq<string>, b: seq<string>)
    ensures Numbers(a + b) == Numbers(a) + Numbers(b)
    decreases |a|
  {
    if |a| > 0 {
      assert (a + b)[1..] == a[1..] + b;
      NumbersConcat(a[1..], b);
    } else {
      assert a + b == b;
    }
  }

  // ---------------------------------------------------------------------------
  // The three fields
  // ---------------------------------------------------------------------------

  /** The times field when saved: the comma pieces, trimmed, empty ones
      dropped. No time is empty, padded or holds a comma; a text without a
      comma gives its trimmed self, or nothing when that is empty. With
      `SaveKeepsOrder` this fixes the times of every text. */
  function SaveTimes(text: string): (times: seq<string>)
    ensures forall i :: 0 <= i < |times| ==>
      times[i] != "" && IsTrimmed(times[i]) && ',' !in times[i]
    ensures ',' !in text ==> times == if Trim(text) == "" then [] else [Trim(text)]
  {
    var parts := Split(text, ',');
    TrimmedPiecesClean(parts);
    assert ',' !in text ==> TrimEach(parts) == [Trim(text)] by {
      if ',' !in text {
        SplitNoSeparator(text, ',');
      }
    }
    NonEmpty(TrimEach(parts))
  }

  /** Trimming comma-free pieces leaves trimmed, comma-free pieces. */
  lemma TrimmedPiecesClean(parts: seq<string>)
    requires forall i :: 0 <= i < |parts| ==> ',' !in parts[i]
    ensures forall x :: x in TrimEach(parts) ==> IsTrimmed(x) && ',' !in x
  {
    var trimmed := TrimEach(parts);
    forall x | x in trimmed ensures IsTrimmed(x) && ',' !in x {
      var i :| 0 <= i < |trimmed| && trimmed[i] == x;
      TrimIsInfix(parts[i]);
    }
  }

  /** The days field when saved: every comma piece that starts with a number
      (after white space and a sign) gives that number, with no range check. */
  function SaveDays(text: string): (days: seq<int>)
    ensures |days| <= |Split(text, ',')|
    ensures ',' !in text ==> days == if ParseInt(text).Some? then [ParseInt(text).value] else []
  {
    assert ',' !in text ==> Split(text, ',') == [text] by {
      if ',' !in text { SplitNoSeparator(text, ','); }
    }
    Numbers(Split(text, ','))
  }

  /** `save()`: the configuration the page stores for the fields' contents;
      every field is present. */
  function Save(form: Form): (cfg: Config)
    ensures cfg.channelId.Some? && cfg.checkTimesJst.Some? && cfg.weekdaysToCheck.Some?
    ensures cfg.channelId.value == Trim(form.channelId)
    ensures cfg.checkTimesJst.value == SaveTimes(form.times)
    ensures cfg.weekdaysToCheck.value == SaveDays(form.days)
  {
    Config(Some(Trim(form.channelId)), Some(SaveTimes(form.times)), Some(SaveDays(form.days)))
  }

  /** `load()`: the stored configuration (the page's defaults when nothing is
      stored) in the fields, a field's default standing in only for a missing
      field. */
  function Load(stored: Option<Config>): (form: Form)
    ensures stored.None? ==> form == Form(DefaultChannelId, "19:02", "3,6")
    ensures stored.Some? ==> var c := stored.value;
      && (c.channelId.None? ==> form.channelId == DefaultChannelId)
      && (c.channelId.Some? ==> form.channelId == c.channelId.value)
      && (c.checkTimesJst.None? ==> form.times == "19:02")
      && (c.checkTimesJst.Some? ==> form.times == Join(c.checkTimesJst.value, ','))
      && (c.weekdaysToCheck.None? ==> form.days == "3,6")
      && (c.weekdaysToCheck.Some? ==> form.days == Join(Numerals(c.weekdaysToCheck.value), ','))
  {
    var config := stored.GetOr(PageDefaults);
    DefaultTexts();
    Form(
      config.channelId.GetOr(DefaultChannelId),
      Join(config.checkTimesJst.GetOr(PageCheckTimes), ','),
      Join(Numerals(config.weekdaysToCheck.GetOr(PageWeekdays)), ','))
  }

  /** The fields show the page's default lists as "19:02" and "3,6". */
  lemma DefaultTexts()
    ensures Join(PageCheckTimes, ',') == "19:02"
    ensures Join(Numerals(PageWeekdays), ',') == "3,6"
  {
    assert NatToString(3) == "3" && NatToString(6) == "6";
    assert Numerals(PageWeekdays) == ["3", "6"];
    assert Join(["3", "6"], ',') == "3" + [','] + Join(["6"], ',');
  }

  /** `resetToDefaults()`: the page's defaults are stored, and the page then
      shows what it shows when nothing is stored. */
  function ResetToDefaults(): (cfg: Config)
    ensures cfg == PageDefaults
    ensures Load(Some(cfg)) == Load(None)
  {
    PageDefaults
  }

  // ---------------------------------------------------------------------------
  // Round trips
  // ---------------------------------------------------------------------------

  lemma TrimIsInfix(s: string)
    ensures forall c :: c in Trim(s) ==> c in s
  {
    var t := TrimStart(s);
    var r := TrimEnd(t);
    assert forall c :: c in r ==> c in t;
    assert forall c :: c in t ==> c in s;
  }

  /** A time list fit for the field, as `save` leaves it: no time is empty,
      padded or holds a comma. */
  ghost predicate CleanTimes(times: seq<string>) {
    forall i :: 0 <= i < |times| ==> times[i] != "" && IsTrimmed(times[i]) && ',' !in times[i]
  }

  /** Joining a clean time list with commas and saving the text gives the list
      back, in order. */
  lemma TimesRoundTrip(times: seq<string>)
    requires CleanTimes(times)
    ensures SaveTimes(Join(times, ',')) == times
  {
    if |times| == 0 {
      assert Join(times, ',') == "" && IsTrimmed("");
    } else {
      SplitJoin(times, ',');
      assert TrimEach(times) == times;
    }
  }

  lemma NumeralHasNoComma(n: int)
    ensures ',' !in IntToString(n)
  {
    var s := IntToString(n);
    var d := if n < 0 then NatToString(-n) else NatToString(n);
    assert forall i :: 0 <= i < |d| ==> IsDigit(d[i]);
    assert n < 0 ==> s == "-" + d;
  }

  /** Joining any integers with commas and saving the text gives them back,
      out-of-range weekdays and negative numbers included. */
  lemma DaysRoundTrip(days: seq<int>)
    ensures SaveDays(Join(Numerals(days), ',')) == days
  {
    var parts := Numerals(days);
    var text := Join(parts, ',');
    if |days| == 0 {
      assert text == "" && ParseInt(text) == None;
    } else {
      assert Split(text, ',') == parts by {
        NumeralsParseBack(days);
        SplitJoin(parts, ',');
      }
      assert Numbers(parts) == days by {
        NumeralsParseBack(days);
      }
    }
  }

  /** Every numeral is comma-free and `parseInt` reads its number back. */
  lemma NumeralsParseBack(days: seq<int>)
    ensures var parts := Numerals(days);
      forall i :: 0 <= i < |parts| ==> ',' !in parts[i] && ParseInt(parts[i]) == Some(days[i])
  {
    var parts := Numerals(days);
    forall i | 0 <= i < |parts| ensures ',' !in parts[i] && ParseInt(parts[i]) == Some(days[i]) {
      NumeralHasNoComma(days[i]);
      ParseIntOfString(days[i], "");
      assert IntToString(days[i]) + "" == IntToString(days[i]);
    }
  }

  /** Saving what `load` shows gives the stored configuration back, for a
      configuration whose channel is trimmed and whose times are clean. */
  lemma LoadSaveRoundTrip(cfg: Config)
    requires cfg.channelId.Some? && IsTrimmed(cfg.channelId.value)
    requires cfg.checkTimesJst.Some? && CleanTimes(cfg.checkTimesJst.value)
    requires cfg.weekdaysToCheck.Some?
    ensures Save(Load(Some(cfg))) == cfg
  {
    TimesRoundTrip(cfg.checkTimesJst.value);
    DaysRoundTrip(cfg.weekdaysToCheck.value);
  }

  /** After a reset the page shows the defaults, and saving them unchanged
      stores the defaults again. */
  lemma ResetThenSave()
    ensures Save(Load(Some(ResetToDefaults()))) == PageDefaults
  {
    assert IsTrimmed(DefaultChannelId);
    assert CleanTimes(PageCheckTimes) by {
      assert PageCheckTimes[0] == "19:02";
      assert ',' !in PageCheckTimes[0];
    }
    LoadSaveRoundTrip(PageDefaults);
  }

  /** A piece that is a number followed by something other than a digit saves
      as that number: "3x" saves as 3. */
  lemma DayWithTrailingText(n: int, rest: string)
    requires |rest| > 0 ==> !IsDigit(rest[0])
    requires ',' !in rest
    ensures SaveDays(IntToString(n) + rest) == [n]
  {
    NumeralHasNoComma(n);
    SplitNoSeparator(IntToString(n) + rest, ',');
    ParseIntOfString(n, rest);
  }

  /** Splitting at a comma splits each side. */
  lemma SplitAtComma(a: string, b: string)
    ensures Split(a + "," + b, ',') == Split(a, ',') + Split(b, ',')
  {
    var pa := Split(a, ',');
    var pb := Split(b, ',');
    JoinConcat(pa, pb, ',');
    assert a + "," + b == Join(pa + pb, ',');
    assert forall i :: 0 <= i < |pa + pb| ==> ',' !in (pa + pb)[i] by {
      forall i | 0 <= i < |pa + pb| ensures ',' !in (pa + pb)[i] {
        if i >= |pa| { assert (pa + pb)[i] == pb[i - |pa|]; }
      }
    }
    SplitJoin(pa + pb, ',');
  }

  lemma {:induction false} TrimEachConcat(a: seq<string>, b: seq<string>)
    ensures TrimEach(a + b) == TrimEach(a) + TrimEach(b)
    decreases |a|
  {
    if |a| > 0 {
      assert (a + b)[1..] == a[1..] + b;
      TrimEachConcat(a[1..], b);
    } else {
      assert a + b == b;
    }
  }

  /** Saving keeps the order of the pieces: the times of `a,b` are the times
      of `a` followed by those of `b`, and likewise for days. */
  lemma SaveKeepsOrder(a: string, b: string)
    ensures SaveTimes(a + "," + b) == SaveTimes(a) + SaveTimes(b)
    ensures SaveDays(a + "," + b) == SaveDays(a) + SaveDays(b)
  {
    var pa := Split(a, ',');
    var pb := Split(b, ',');
    SplitAtComma(a, b);
    TrimEachConcat(pa, pb);
    NonEmptyConcat(TrimEach(pa), TrimEach(pb));
    NumbersConcat(pa, pb);
  }

  /** The day "3x" saves as 3. */
  lemma ThreeX(text: string)
    requires text == "3x"
    ensures SaveDays(text) == [3]
  {
    assert IntToString(3) + "x" == text;
    DayWithTrailingText(3, "x");
  }
}

=== FILE: scheduler.dfy ===
/**
 * The daily alarm scheduler of the background worker and the JST date helpers
 * it is built on.
 *
 * Once a day (and at install and browser start) the worker clears every alarm
 * and creates one `check-<HH:MM>` alarm per configured time of day that is still
 * ahead today, provided today's weekday is a check day, plus one
 * `reset-next-day` alarm at 09:00 JST of the next date that repeats the cycle.
 *
 * JST is UTC+9. The worker shifts an instant by nine hours and then reads its
 * calendar fields with the LOCAL getters, so those fields are the JST ones only
 * on a host whose own offset from UTC is zero. The host offset is therefore a
 * parameter (`hostOffset`, milliseconds east of UTC, taken as constant) of the
 * functions that model those reads: `SetDailyAlarms` is the code as written on
 * any host, `SetDailyAlarmsJst` is the same code reading the shifted instant
 * with the UTC getters (offset zero), which is what the code evidently intends.
 */
module Scheduler {
  import opened Wrappers
  import opened Text
  import opened Calendar
  import opened Settings

  // ---------------------------------------------------------------------------
  // Configuration
  // ---------------------------------------------------------------------------

  const DefaultCheckTimes: seq<string> := ["19:00", "19:15"]
  const DefaultWeekdays: seq<int> := [3, 6]

  /** The background worker's defaults: check Wednesdays and Saturdays at 19:00 and 19:15. */
  const Defaults: Config := Config(Some(DefaultChannelId), Some(DefaultCheckTimes), Some(DefaultWeekdays))

  /** `cfg.checkTimesJst || DEFAULTS.checkTimesJst`: an array is never falsy,
      so only a missing list falls back, and an empty one stays empty. */
  function EffectiveTimes(cfg: Config): seq<string> {
    cfg.checkTimesJst.GetOr(DefaultCheckTimes)
  }

  /** `cfg.weekdaysToCheck || DEFAULTS.weekdaysToCheck`. */
  function EffectiveWeekdays(cfg: Config): seq<int> {
    cfg.weekdaysToCheck.GetOr(DefaultWeekdays)
  }

  // ---------------------------------------------------------------------------
  // Date and time text
  // ---------------------------------------------------------------------------

  const JstOffset: int := 9 * MsPerHour

  /** `toJst(d)`: the instant nine hours later. */
  function ToJst(t: int): int {
    t + JstOffset
  }

  /** `${y}-${pad(m)}-${pad(d)}`. */
  function FormatYmd(year: int, month: nat, day: nat): string {
    IntToString(year) + "-" + Pad2(month) + "-" + Pad2(day)
  }

  function FormatDate(d: Date): string
    requires d.month >= 1 && d.day >= 1
  {
    FormatYmd(d.year, d.month, d.day)
  }

  /** Text `ymd.split("-").map(Number)` reads as three numbers: three digit runs. */
  predicate IsDateText(ymd: string) {
    var parts := Split(ymd, '-');
    |parts| == 3 && IsDigitRun(parts[0]) && IsDigitRun(parts[1]) && IsDigitRun(parts[2])
  }

  /** Text `hhmm.split(":").map(Number)` reads as two numbers: two digit runs. */
  predicate IsTimeText(hhmm: string) {
    var parts := Split(hhmm, ':');
    |parts| == 2 && IsDigitRun(parts[0]) && IsDigitRun(parts[1])
  }

  predicate AllTimeTexts(times: seq<string>) {
    forall t :: t in times ==> IsTimeText(t)
  }

  /** `const [y, m, day] = ymd.split("-").map(Number)`, as a date. */
  function ParseYmd(ymd: string): Date
    requires IsDateText(ymd)
  {
    var parts := Split(ymd, '-');
    Date(DecimalValue(parts[0]), DecimalValue(parts[1]), DecimalValue(parts[2]))
  }

  /** `const [h, min] = hhmm.split(":").map(Number)`. */
  function ParseHhMm(hhmm: string): (int, int)
    requires IsTimeText(hhmm)
  {
    var parts := Split(hhmm, ':');
    (DecimalValue(parts[0]), DecimalValue(parts[1]))
  }

  /** Milliseconds after midnight of a wall-clock time: `HH * 1h + MM * 1min`. */
  function TimeOfDay(hhmm: string): int
    requires IsTimeText(hhmm)
  {
    ParseHhMm(hhmm).0 * MsPerHour + ParseHhMm(hhmm).1 * MsPerMinute
  }

  /** The instant at which JST wall-clock time `hhmm` falls on the JST day
      numbered `day`: the reference the scheduler's arithmetic is measured by. */
  function JstInstant(day: int, hhmm: string): int
    requires IsTimeText(hhmm)
  {
    day * MsPerDay + TimeOfDay(hhmm) - JstOffset
  }

  /** Formatting a date and splitting it on `-` again gives the same date. */
  lemma FormatDateRoundTrip(d: Date)
    requires d.year >= 0 && d.month >= 1 && d.day >= 1
    ensures IsDateText(FormatDate(d))
    ensures ParseYmd(FormatDate(d)) == d
  {
    var parts := [NatToString(d.year), Pad2(d.month), Pad2(d.day)];
    assert FormatDate(d) == Join(parts, '-') by {
      assert Join(parts[2..], '-') == parts[2];
      assert Join(parts[1..], '-') == parts[1] + ['-'] + parts[2];
    }
    forall i | 0 <= i < 3
      ensures '-' !in parts[i]
    {
      NoNonDigit(parts[i], '-');
    }
    SplitJoin(parts, '-');
  }

  /** Two digit runs joined by a colon are time text naming those numbers. */
  lemma TimeTextOf(h: string, m: string)
    requires IsDigitRun(h) && IsDigitRun(m)
    ensures IsTimeText(h + ":" + m)
    ensures ParseHhMm(h + ":" + m) == (DecimalValue(h), DecimalValue(m))
  {
    assert h + ":" + m == Join([h, m], ':');
    NoNonDigit(h, ':');
    NoNonDigit(m, ':');
    SplitJoin([h, m], ':');
  }

  // ---------------------------------------------------------------------------
  // The calendar fields of an instant, as text
  // ---------------------------------------------------------------------------

  /** `${t.getFullYear()}-${pad(t.getMonth() + 1)}-${pad(t.getDate())}` for
      the fields of time value `t`: the date of its day number, written with a
      two-digit month and day, and text `split("-")` reads back as that date. */
  function FieldsYmd(t: int): (ymd: string)
    requires Year0Start <= Day(t)
    ensures ymd == FormatDate(DateOfDay(Day(t)))
    ensures IsDateText(ymd) && ParseYmd(ymd) == DateOfDay(Day(t))
  {
    DateOfTime(t);
    YearFromDayNonNegative(Day(t));
    FormatDateRoundTrip(DateOfDay(Day(t)));
    FormatYmd(YearFromTime(t), MonthFromTime(t) + 1, DateFromTime(t))
  }

  // ---------------------------------------------------------------------------
  // jstDateTimeToEpochMs
  // ---------------------------------------------------------------------------

  /** `jstDateTimeToEpochMs(ymd, hhmm)`: `Date.UTC(y, m - 1, day, h - 9, min, 0)`.
      On a valid date of year 100 or later it is the JST instant of that date
      and time. */
  function JstDateTimeToEpochMs(ymd: string, hhmm: string): (t: int)
    requires IsDateText(ymd) && IsTimeText(hhmm)
    ensures ValidDate(ParseYmd(ymd)) && ParseYmd(ymd).year >= 100 ==>
      t == JstInstant(DayNumber(ParseYmd(ymd)), hhmm)
  {
    var d := ParseYmd(ymd);
    var h := ParseHhMm(hhmm).0;
    var min := ParseHhMm(hhmm).1;
    DateUtcOfDate(d, h - 9, min);
    DateUtc(d.year, d.month - 1, d.day, h - 9, min, 0)
  }

  /** Shifting the instant `jstDateTimeToEpochMs` returns by `toJst` gives an
      instant whose UTC fields are exactly the date and time written. */
  lemma JstDateTimeFields(ymd: string, hhmm: string)
    requires IsDateText(ymd) && IsTimeText(hhmm)
    requires ValidDate(ParseYmd(ymd)) && ParseYmd(ymd).year >= 100
    requires ParseHhMm(hhmm).0 < 24 && ParseHhMm(hhmm).1 < 60
    ensures var jst := ToJst(JstDateTimeToEpochMs(ymd, hhmm));
      && DateOfDay(Day(jst)) == ParseYmd(ymd)
      && HourFromTime(jst) == ParseHhMm(hhmm).0
      && MinFromTime(jst) == ParseHhMm(hhmm).1
  {
    var d := ParseYmd(ymd);
    var n := DayNumber(d);
    var h := ParseHhMm(hhmm).0;
    var min := ParseHhMm(hhmm).1;
    var jst := ToJst(JstDateTimeToEpochMs(ymd, hhmm));
    assert jst == n * MsPerDay + h * MsPerHour + min * MsPerMinute;
    TimeFields(jst, n, h, min);
    DayNumberInverse(d);
  }

  // ---------------------------------------------------------------------------
  // nextDateJst
  // ---------------------------------------------------------------------------

  /** `Date.UTC(y, m - 1, d, 0, 0, 0)`: on a valid date of year 100 or later,
      the first instant of the date's day. */
  function UtcMidnight(d: Date): (t: int)
    ensures ValidDate(d) && d.year >= 100 ==> t == DayNumber(d) * MsPerDay
  {
    DateUtcOfDate(d, 0, 0);
    DateUtc(d.year, d.month - 1, d.day, 0, 0, 0)
  }

  /** `j.setUTCDate(j.getUTCDate() + 1)` on the midnight `j` of `d`: one day
      later, whatever month `j` is in. */
  function NextUtcMidnight(d: Date): (t: int)
    ensures t == UtcMidnight(d) + MsPerDay
  {
    var j := UtcMidnight(d);
    SetUtcDateNextDay(j);
    SetUtcDate(j, DateFromTime(j) + 1)
  }

  /** The instant whose local fields `nextDateJst` reads: `toJst(j)` seen from
      a host at `hostOffset`. */
  function NextLocal(d: Date, hostOffset: int): int {
    ToJst(NextUtcMidnight(d)) + hostOffset
  }

  /** Whatever digits the date text holds, its midnight is in year 0 or
      later (`Date.UTC` reads years 0 to 99 as 1900 to 1999). */
  lemma UtcMidnightLowerBound(d: Date)
    requires d.year >= 0 && d.month >= 0 && d.day >= 0
    ensures Year0Start * MsPerDay <= UtcMidnight(d)
  {
    var yr := if 0 <= d.year <= 99 then 1900 + d.year else d.year;
    MakeDayAfterYear0(yr, d.month - 1, d.day);
    assert UtcMidnight(d) == MakeDay(yr, d.month - 1, d.day) * MsPerDay;
  }

  lemma MakeDayAfterYear0(year: int, month: int, date: int)
    requires year >= 100 && month >= -1 && date >= 0
    ensures Year0Start <= MakeDay(year, month, date)
  {
    var y0 := 0;
    YearStarts(y0);
    MakeDayLowerBound(year, month, date);
    DayFromYearMonotone(y0, year - 1);
  }

  /** So is the instant `nextDateJst` reads. */
  lemma NextLocalLowerBound(d: Date, hostOffset: int)
    requires d.year >= 0 && d.month >= 0 && d.day >= 0 && -MsPerDay < hostOffset
    ensures Year0Start <= Day(NextLocal(d, hostOffset))
  {
    UtcMidnightLowerBound(d);
    assert UtcMidnight(d) <= NextLocal(d, hostOffset);
  }

  /** `nextDateJst(ymd)` on a host at `hostOffset`: the local fields of
      `toJst` of the next UTC midnight, as date text. */
  function NextDateJst(ymd: string, hostOffset: int): (r: string)
    requires IsDateText(ymd) && -MsPerDay < hostOffset < MsPerDay
    ensures r == FormatDate(DateOfDay(Day(NextLocal(ParseYmd(ymd), hostOffset))))
    ensures IsDateText(r) && ParseYmd(r) == DateOfDay(Day(NextLocal(ParseYmd(ymd), hostOffset)))
  {
    NextLocalLowerBound(ParseYmd(ymd), hostOffset);
    FieldsYmd(NextLocal(ParseYmd(ymd), hostOffset))
  }

  /** On a valid date of year 100 or later, the instant `nextDateJst` reads
      falls on the next day number whenever the host offset is within
      [-9 h, +15 h). */
  lemma NextLocalDay(d: Date, hostOffset: int)
    requires ValidDate(d) && d.year >= 100
    requires -JstOffset <= hostOffset < MsPerDay - JstOffset
    ensures Day(NextLocal(d, hostOffset)) == DayNumber(d) + 1
  {
    var n := DayNumber(d);
    assert NextLocal(d, hostOffset) == (n + 1) * MsPerDay + (JstOffset + hostOffset);
    DayOfInstant(NextLocal(d, hostOffset), n + 1);
  }

  /** `nextDateJst` writes the calendar's next date, zero-padded, on any host
      whose offset lies in [-9 h, +15 h), UTC and JST included. */
  lemma NextDateJstIsNextDate(ymd: string, hostOffset: int)
    requires IsDateText(ymd)
    requires ValidDate(ParseYmd(ymd)) && ParseYmd(ymd).year >= 100
    requires -JstOffset <= hostOffset < MsPerDay - JstOffset
    ensures NextDateJst(ymd, hostOffset) == FormatDate(NextDate(ParseYmd(ymd)))
    ensures ParseYmd(NextDateJst(ymd, hostOffset)) == NextDate(ParseYmd(ymd))
  {
    var d := ParseYmd(ymd);
    NextLocalDay(d, hostOffset);
    NextDayIsNextDate(d);
  }

  /** February 28th is followed by February 29th only in a leap year. */
  lemma NextDateJstLeapDay(ymd: string, hostOffset: int)
    requires IsDateText(ymd)
    requires ValidDate(ParseYmd(ymd)) && ParseYmd(ymd).year >= 100
    requires -JstOffset <= hostOffset < MsPerDay - JstOffset
    requires ParseYmd(ymd).month == 2 && ParseYmd(ymd).day == 28
    ensures var y := ParseYmd(ymd).year;
      ParseYmd(NextDateJst(ymd, hostOffset)) == if IsLeapYear(y) then Date(y, 2, 29) else Date(y, 3, 1)
  {
    NextDateJstIsNextDate(ymd, hostOffset);
  }

  /** The last day of a month is followed by the first of the next month, and
      the last day of the year by New Year's Day. */
  lemma NextDateJstMonthEnd(ymd: string, hostOffset: int)
    requires IsDateText(ymd)
    requires ValidDate(ParseYmd(ymd)) && ParseYmd(ymd).year >= 100
    requires -JstOffset <= hostOffset < MsPerDay - JstOffset
    requires ParseYmd(ymd).day == DaysInMonth(ParseYmd(ymd).year, ParseYmd(ymd).month)
    ensures var d := ParseYmd(ymd);
      ParseYmd(NextDateJst(ymd, hostOffset))
        == if d.month == 12 then Date(d.year + 1, 1, 1) else Date(d.year, d.month + 1, 1)
  {
    NextDateJstIsNextDate(ymd, hostOffset);
  }

  // ---------------------------------------------------------------------------
  // Alarms
  // ---------------------------------------------------------------------------

  const ResetAlarm: string := "reset-next-day"
  const CheckPrefix: string := "check-"

  /** `check-${t}`. */
  function CheckAlarmName(t: string): (name: string)
    ensures StartsWith(name, CheckPrefix) && name[|CheckPrefix|..] == t
    ensures name != ResetAlarm
  {
    var name := CheckPrefix + t;
    assert name[0] != ResetAlarm[0];
    name
  }

  /** Alarm names map to absolute instants; creating an alarm under a name that
      exists replaces it. */
  type AlarmStore = map<string, int>

  /** The calls the scheduler makes on the alarm facility. */
  datatype AlarmOp = ClearAll | Create(name: string, when: int)

  function Perform(store: AlarmStore, op: AlarmOp): AlarmStore {
    match op
    case ClearAll => map[]
    case Create(name, when) => store[name := when]
  }

  /** The alarm store after the calls `ops`, in order. */
  function Apply(store: AlarmStore, ops: seq<AlarmOp>): AlarmStore
    decreases |ops|
  {
    if |ops| == 0 then store else Apply(Perform(store, ops[0]), ops[1..])
  }

  lemma {:induction false} ApplyConcat(store: AlarmStore, a: seq<AlarmOp>, b: seq<AlarmOp>)
    ensures Apply(store, a + b) == Apply(Apply(store, a), b)
    decreases |a|
  {
    if |a| > 0 {
      assert (a + b)[1..] == a[1..] + b;
      ApplyConcat(Perform(store, a[0]), a[1..], b);
    } else {
      assert a + b == b;
    }
  }

  /** One turn of the loop over the times: `chrome.alarms.create` when the
      time's instant on `ymd` is after `now`, nothing otherwise. */
  function CheckOp(ymd: string, t: string, now: int): seq<AlarmOp>
    requires IsDateText(ymd) && IsTimeText(t)
  {
    var when := JstDateTimeToEpochMs(ymd, t);
    if when > now then [Create(CheckAlarmName(t), when)] else []
  }

  /** The alarm that turn leaves, as a map. */
  function CheckEntry(ymd: string, t: string, now: int): AlarmStore
    requires IsDateText(ymd) && IsTimeText(t)
  {
    var when := JstDateTimeToEpochMs(ymd, t);
    if when > now then map[CheckAlarmName(t) := when] else map[]
  }

  /** The whole loop over the times, in order. */
  function CheckOps(ymd: string, times: seq<string>, now: int): seq<AlarmOp>
    requires IsDateText(ymd) && AllTimeTexts(times)
    decreases |times|
  {
    if |times| == 0 then [] else CheckOp(ymd, times[0], now) + CheckOps(ymd, times[1..], now)
  }

  /** The check alarms for `times` on `ymd`, as a map: `CheckAlarmsSpec`
      says which names it holds and when they ring. */
  function CheckAlarms(ymd: string, times: seq<string>, now: int): AlarmStore
    requires IsDateText(ymd) && AllTimeTexts(times)
    decreases |times|
  {
    if |times| == 0 then map[] else CheckEntry(ymd, times[0], now) + CheckAlarms(ymd, times[1..], now)
  }

  /** A `check-<t>` alarm exists for exactly the times `t` of the list whose
      instant on `ymd` is after `now`, and rings at that instant; there is no
      other alarm. */
  lemma {:induction false} CheckAlarmsSpec(ymd: string, times: seq<string>, now: int)
    requires IsDateText(ymd) && AllTimeTexts(times)
    ensures var m := CheckAlarms(ymd, times, now);
      forall k :: k in m ==>
        && StartsWith(k, CheckPrefix)
        && k[|CheckPrefix|..] in times
        && m[k] == JstDateTimeToEpochMs(ymd, k[|CheckPrefix|..]) > now
    ensures forall t :: t in times && JstDateTimeToEpochMs(ymd, t) > now ==>
      CheckAlarmName(t) in CheckAlarms(ymd, times, now)
    decreases |times|
  {
    if |times| > 0 {
      var t := times[0];
      CheckAlarmsSpec(ymd, times[1..], now);
      assert forall u :: u in times <==> u == t || u in times[1..] by {
        assert times == [t] + times[1..];
      }
    }
  }

  /** One turn of the loop adds its alarm to the store. */
  lemma ApplyCheckOp(store: AlarmStore, ymd: string, t: string, now: int)
    requires IsDateText(ymd) && IsTimeText(t)
    ensures Apply(store, CheckOp(ymd, t, now)) == store + CheckEntry(ymd, t, now)
  {
    var when := JstDateTimeToEpochMs(ymd, t);
    if when > now {
      assert CheckOp(ymd, t, now)[1..] == [];
    } else {
      assert store + map[] == store;
    }
  }

  /** The creates of the loop add the check alarms to the store, the later of
      two creates under one name winning. */
  lemma {:induction false} ApplyCheckOps(store: AlarmStore, ymd: string, times: seq<string>, now: int)
    requires IsDateText(ymd) && AllTimeTexts(times)
    ensures Apply(store, CheckOps(ymd, times, now)) == store + CheckAlarms(ymd, times, now)
    decreases |times|
  {
    if |times| == 0 {
      assert store + map[] == store;
    } else {
      var head := CheckEntry(ymd, times[0], now);
      ApplyConcat(store, CheckOp(ymd, times[0], now), CheckOps(ymd, times[1..], now));
      ApplyCheckOp(store, ymd, times[0], now);
      ApplyCheckOps(store + head, ymd, times[1..], now);
      UnionAssociative(store, head, CheckAlarms(ymd, times[1..], now));
    }
  }

  lemma UnionAssociative(a: AlarmStore, b: AlarmStore, c: AlarmStore)
    ensures (a + b) + c == a + (b + c)
  {
  }

  // ---------------------------------------------------------------------------
  // setDailyAlarms
  // ---------------------------------------------------------------------------

  /** What the worker reads as today: `toJst(now)` seen from a host at `hostOffset`. */
  function TodayLocal(now: int, hostOffset: int): int {
    ToJst(now) + hostOffset
  }

  /** From 1970 on, today is after the start of year 100. */
  lemma TodayInRange(now: int, hostOffset: int)
    requires 0 <= now && -MsPerDay < hostOffset
    ensures Year100Start <= Day(TodayLocal(now, hostOffset))
  {
  }

  /** The reset time of day. */
  const ResetTime: string := "09:00"

  lemma ResetTimeText()
    ensures IsTimeText(ResetTime) && TimeOfDay(ResetTime) == JstOffset
  {
    TimeTextOf("09", "00");
    assert ResetTime == "09" + ":" + "00";
  }

  /** The times checked today: the configured ones on a check day, none otherwise. */
  function TimesToday(cfg: Config, local: int): seq<string> {
    if WeekDay(local) in EffectiveWeekdays(cfg) then EffectiveTimes(cfg) else []
  }

  /** `jstDateTimeToEpochMs(nextDateJst(ymd), "09:00")`: when the reset alarm
      rings. */
  function ResetWhen(ymd: string, hostOffset: int): int
    requires IsDateText(ymd) && -MsPerDay < hostOffset < MsPerDay
  {
    ResetTimeText();
    JstDateTimeToEpochMs(NextDateJst(ymd, hostOffset), ResetTime)
  }

  /** The calls `setDailyAlarms` makes on a host at `hostOffset`: clear every
      alarm, create the checks still ahead today when today is a check day,
      then create the reset at 09:00 JST of the next date. */
  function DailyAlarmOps(cfg: Config, now: int, hostOffset: int): seq<AlarmOp>
    requires 0 <= now && -MsPerDay < hostOffset < MsPerDay
    requires AllTimeTexts(EffectiveTimes(cfg))
  {
    var local := TodayLocal(now, hostOffset);
    TodayInRange(now, hostOffset);
    var ymd := FieldsYmd(local);
    [ClearAll] + CheckOps(ymd, TimesToday(cfg, local), now) + [Create(ResetAlarm, ResetWhen(ymd, hostOffset))]
  }

  /** `setDailyAlarms()` as written, on a host at `hostOffset`: the alarm store
      afterwards. */
  function SetDailyAlarms(store: AlarmStore, cfg: Config, now: int, hostOffset: int): AlarmStore
    requires 0 <= now && -MsPerDay < hostOffset < MsPerDay
    requires AllTimeTexts(EffectiveTimes(cfg))
  {
    Apply(store, DailyAlarmOps(cfg, now, hostOffset))
  }

  /** `setDailyAlarms()` reading the fields of `toJst(now)` with the UTC
      getters (`getUTCDay`, `getUTCFullYear`, `getUTCMonth`, `getUTCDate`, and
      the same inside `nextDateJst`), which is reading them at offset zero. */
  function SetDailyAlarmsJst(store: AlarmStore, cfg: Config, now: int): AlarmStore
    requires 0 <= now
    requires AllTimeTexts(EffectiveTimes(cfg))
  {
    SetDailyAlarms(store, cfg, now, 0)
  }

  /** Clearing first makes the result independent of the store: the creates
      that follow act on an empty one. */
  lemma ApplyAfterClear(store: AlarmStore, checks: seq<AlarmOp>, name: string, when: int)
    ensures Apply(store, [ClearAll] + checks + [Create(name, when)]) == Apply(map[], checks)[name := when]
  {
    ApplyConcat(store, [ClearAll] + checks, [Create(name, when)]);
    ApplyConcat(store, [ClearAll], checks);
  }

  lemma EmptyUnion(m: AlarmStore)
    ensures map[] + m == m
  {
  }

  /** The date text of an instant from 1970 on names a valid date of year 100
      or later whose day number is the instant's. */
  lemma TodayDate(local: int)
    requires Year100Start <= Day(local)
    ensures Year0Start <= Day(local)
    ensures var d := ParseYmd(FieldsYmd(local));
      ValidDate(d) && d.year >= 100 && DayNumber(d) == Day(local)
  {
    DateOfDayInverse(Day(local));
    YearFromDayAtLeast100(Day(local));
  }

  /** The reset alarm's instant: 09:00 JST of the next date is the start of the
      next UTC day. */
  lemma ResetInstant(ymd: string, hostOffset: int)
    requires IsDateText(ymd)
    requires ValidDate(ParseYmd(ymd)) && ParseYmd(ymd).year >= 100
    requires -JstOffset <= hostOffset < MsPerDay - JstOffset
    ensures ResetWhen(ymd, hostOffset) == (DayNumber(ParseYmd(ymd)) + 1) * MsPerDay
  {
    var d := ParseYmd(ymd);
    ResetTimeText();
    NextDateJstIsNextDate(ymd, hostOffset);
    NextDateDayNumber(d);
  }

  /** A run from 1970 on sets the reset alarm to the start of the UTC day
      after the day it reads as today. */
  lemma ResetWhenToday(now: int, hostOffset: int)
    requires 0 <= now && -JstOffset <= hostOffset < MsPerDay - JstOffset
    ensures Year0Start <= Day(TodayLocal(now, hostOffset))
    ensures var local := TodayLocal(now, hostOffset);
      ResetWhen(FieldsYmd(local), hostOffset) == (Day(local) + 1) * MsPerDay
  {
    var local := TodayLocal(now, hostOffset);
    TodayInRange(now, hostOffset);
    TodayDate(local);
    ResetInstant(FieldsYmd(local), hostOffset);
  }

  /** The calls of a run from 1970 on: clear, the loop over today's times,
      and the reset at the start of the next UTC day. */
  lemma DailyAlarmOpsShape(cfg: Config, now: int, hostOffset: int)
    requires 0 <= now && -JstOffset <= hostOffset < MsPerDay - JstOffset
    requires AllTimeTexts(EffectiveTimes(cfg))
    ensures Year0Start <= Day(TodayLocal(now, hostOffset))
    ensures var local := TodayLocal(now, hostOffset);
      DailyAlarmOps(cfg, now, hostOffset)
        == [ClearAll] + CheckOps(FieldsYmd(local), TimesToday(cfg, local), now)
           + [Create(ResetAlarm, (Day(local) + 1) * MsPerDay)]
  {
    ResetWhenToday(now, hostOffset);
  }

  /** After the run the store holds the check alarms of the day the host reads
      as today and the reset alarm at 09:00 JST of the day after it; whatever
      the store held before is gone. */
  lemma SetDailyAlarmsResult(store: AlarmStore, cfg: Config, now: int, hostOffset: int)
    requires 0 <= now && -JstOffset <= hostOffset < MsPerDay - JstOffset
    requires AllTimeTexts(EffectiveTimes(cfg))
    ensures Year0Start <= Day(TodayLocal(now, hostOffset))
    ensures var local := TodayLocal(now, hostOffset);
      SetDailyAlarms(store, cfg, now, hostOffset)
        == CheckAlarms(FieldsYmd(local), TimesToday(cfg, local), now)[ResetAlarm := (Day(local) + 1) * MsPerDay]
  {
    var local := TodayLocal(now, hostOffset);
    DailyAlarmOpsShape(cfg, now, hostOffset);
    var ymd := FieldsYmd(local);
    var times := TimesToday(cfg, local);
    ApplyAfterClear(store, CheckOps(ymd, times, now), ResetAlarm, (Day(local) + 1) * MsPerDay);
    ApplyCheckOps(map[], ymd, times, now);
    EmptyUnion(CheckAlarms(ymd, times, now));
  }

  /** The date text of a day from year 100 on turns a time of day into the
      JST instant of that time on that day. */
  lemma FieldsInstant(local: int, hhmm: string)
    requires Year100Start <= Day(local) && IsTimeText(hhmm)
    ensures Year0Start <= Day(local)
    ensures JstDateTimeToEpochMs(FieldsYmd(local), hhmm) == JstInstant(Day(local), hhmm)
  {
    TodayDate(local);
  }

  /** `r` holds a check alarm for exactly those times of `times` whose JST
      instant on day `day` is after `now`, ringing at that instant, and
      besides the reset alarm nothing else. */
  ghost predicate ChecksOnDay(r: AlarmStore, times: seq<string>, day: int, now: int) {
    && (forall t {:trigger CheckAlarmName(t)} :: IsTimeText(t) ==>
         (CheckAlarmName(t) in r <==> t in times && JstInstant(day, t) > now))
    && (forall k :: k in r && k != ResetAlarm ==>
         && StartsWith(k, CheckPrefix)
         && IsTimeText(k[|CheckPrefix|..])
         && k[|CheckPrefix|..] in times
         && r[k] == JstInstant(day, k[|CheckPrefix|..]) > now)
  }

  /** When every listed time's instant on `ymd` is its JST instant on day
      `day`, the check alarms are those of that day. */
  lemma CheckAlarmsOnDay(ymd: string, times: seq<string>, now: int, day: int)
    requires IsDateText(ymd) && AllTimeTexts(times)
    requires forall t :: t in times ==> JstDateTimeToEpochMs(ymd, t) == JstInstant(day, t)
    ensures ChecksOnDay(CheckAlarms(ymd, times, now), times, day, now)
  {
    var m := CheckAlarms(ymd, times, now);
    CheckAlarmsSpec(ymd, times, now);
    forall t | IsTimeText(t) && CheckAlarmName(t) in m
      ensures t in times
    {
      assert CheckAlarmName(t)[|CheckPrefix|..] == t;
    }
  }

  /** Setting the reset alarm leaves the check alarms as they are. */
  lemma ChecksOnDayWithReset(m: AlarmStore, times: seq<string>, day: int, now: int, when: int)
    requires ChecksOnDay(m, times, day, now)
    ensures ChecksOnDay(m[ResetAlarm := when], times, day, now)
  {
  }

  /** With no times to check, the reset alarm is the only alarm. */
  lemma OnlyResetWithoutTimes(r: AlarmStore, day: int, now: int)
    requires ResetAlarm in r && ChecksOnDay(r, [], day, now)
    ensures r.Keys == {ResetAlarm}
  {
    forall k | k in r
      ensures k == ResetAlarm
    {
    }
  }

  /** What a run leaves, alarm by alarm, on a host whose offset lies in
      [-9 h, +15 h): the reset alarm at the start of the UTC day after the day
      the host reads as today, and the check alarms of that day for the times
      of `TimesToday`. */
  lemma SetDailyAlarmsSpec(store: AlarmStore, cfg: Config, now: int, hostOffset: int)
    requires 0 <= now && -JstOffset <= hostOffset < MsPerDay - JstOffset
    requires AllTimeTexts(EffectiveTimes(cfg))
    ensures var r := SetDailyAlarms(store, cfg, now, hostOffset);
      var day := Day(TodayLocal(now, hostOffset));
      ResetAlarm in r && r[ResetAlarm] == (day + 1) * MsPerDay
    ensures var local := TodayLocal(now, hostOffset);
      ChecksOnDay(SetDailyAlarms(store, cfg, now, hostOffset), TimesToday(cfg, local), Day(local), now)
  {
    var local := TodayLocal(now, hostOffset);
    var times := TimesToday(cfg, local);
    SetDailyAlarmsResult(store, cfg, now, hostOffset);
    TodayInRange(now, hostOffset);
    var ymd := FieldsYmd(local);
    forall t | t in times
      ensures JstDateTimeToEpochMs(ymd, t) == JstInstant(Day(local), t)
    {
      FieldsInstant(local, t);
    }
    CheckAlarmsOnDay(ymd, times, now, Day(local));
    ChecksOnDayWithReset(CheckAlarms(ymd, times, now), times, Day(local), now, (Day(local) + 1) * MsPerDay);
  }

  /** The times checked today are the configured ones exactly when today is a
      configured weekday. */
  lemma TimesTodaySpec(cfg: Config, local: int, t: string)
    ensures t in TimesToday(cfg, local) <==> WeekDay(local) in EffectiveWeekdays(cfg) && t in EffectiveTimes(cfg)
  {
  }

  /** The same for the corrected run, in JST terms: the reset alarm rings at
      the start of the UTC day after today's JST date, which is 09:00 JST of
      the next JST date (`ResetTimeText`), and on a check day there is a
      check alarm for every configured time still ahead on today's JST date;
      on any other day the reset alarm is the only one. */
  lemma SetDailyAlarmsJstSpec(store: AlarmStore, cfg: Config, now: int)
    requires 0 <= now
    requires AllTimeTexts(EffectiveTimes(cfg))
    ensures var r := SetDailyAlarmsJst(store, cfg, now);
      ResetAlarm in r && r[ResetAlarm] == (Day(ToJst(now)) + 1) * MsPerDay
    ensures ChecksOnDay(SetDailyAlarmsJst(store, cfg, now), TimesToday(cfg, ToJst(now)), Day(ToJst(now)), now)
    ensures WeekDay(ToJst(now)) !in EffectiveWeekdays(cfg) ==> SetDailyAlarmsJst(store, cfg, now).Keys == {ResetAlarm}
    ensures forall t {:trigger CheckAlarmName(t)} :: IsTimeText(t) ==>
      (CheckAlarmName(t) in SetDailyAlarmsJst(store, cfg, now) <==>
         && WeekDay(ToJst(now)) in EffectiveWeekdays(cfg)
         && t in EffectiveTimes(cfg)
         && JstInstant(Day(ToJst(now)), t) > now)
  {
    var r := SetDailyAlarmsJst(store, cfg, now);
    SetDailyAlarmsSpec(store, cfg, now, 0);
    assert TodayLocal(now, 0) == ToJst(now);
    if WeekDay(ToJst(now)) !in EffectiveWeekdays(cfg) {
      OnlyResetWithoutTimes(r, Day(ToJst(now)), now);
    }
    forall t | IsTimeText(t)
      ensures CheckAlarmName(t) in r <==>
        && WeekDay(ToJst(now)) in EffectiveWeekdays(cfg)
        && t in EffectiveTimes(cfg)
        && JstInstant(Day(ToJst(now)), t) > now
    {
      TimesTodaySpec(cfg, ToJst(now), t);
    }
  }

  /** The reset alarm of the corrected run rings at 09:00 JST of the day
      after today's JST date. */
  lemma ResetAtNineJst(store: AlarmStore, cfg: Config, now: int)
    requires 0 <= now
    requires AllTimeTexts(EffectiveTimes(cfg))
    ensures IsTimeText(ResetTime)
    ensures var r := SetDailyAlarmsJst(store, cfg, now);
      ResetAlarm in r && r[ResetAlarm] == JstInstant(Day(ToJst(now)) + 1, ResetTime)
  {
    ResetTimeText();
    SetDailyAlarmsJstSpec(store, cfg, now);
  }

  /** A stored empty time list is not replaced by the defaults: the run sets
      the reset alarm and nothing else, on every weekday. */
  lemma EmptyTimesOnlyReset(store: AlarmStore, cfg: Config, now: int)
    requires 0 <= now
    requires cfg.checkTimesJst == Some([])
    ensures AllTimeTexts(EffectiveTimes(cfg))
    ensures SetDailyAlarmsJst(store, cfg, now).Keys == {ResetAlarm}
  {
    assert EffectiveTimes(cfg) == [];
    SetDailyAlarmsJstSpec(store, cfg, now);
    assert TimesToday(cfg, ToJst(now)) == [];
    OnlyResetWithoutTimes(SetDailyAlarmsJst(store, cfg, now), Day(ToJst(now)), now);
  }

  /** Every run clears the store first, so what it leaves depends on the
      configuration, the time and the host alone, and a second run at the
      same instant changes nothing. */
  lemma SetDailyAlarmsForgetsStore(store: AlarmStore, other: AlarmStore, cfg: Config, now: int, hostOffset: int)
    requires 0 <= now && -MsPerDay < hostOffset < MsPerDay
    requires AllTimeTexts(EffectiveTimes(cfg))
    ensures SetDailyAlarms(store, cfg, now, hostOffset) == SetDailyAlarms(other, cfg, now, hostOffset)
    ensures var once := SetDailyAlarms(store, cfg, now, hostOffset);
      SetDailyAlarms(once, cfg, now, hostOffset) == once
  {
    var ops := DailyAlarmOps(cfg, now, hostOffset);
    ClearFirst(store, ops);
    ClearFirst(other, ops);
    ClearFirst(SetDailyAlarms(store, cfg, now, hostOffset), ops);
  }

  /** Calls that start by clearing every alarm act as on an empty store. */
  lemma ClearFirst(store: AlarmStore, ops: seq<AlarmOp>)
    requires |ops| > 0 && ops[0] == ClearAll
    ensures Apply(store, ops) == Apply(map[], ops[1..])
  {
  }

  /** What the alarm listener does with a ringing alarm. */
  datatype AlarmAction = Reschedule | CheckFeed | Ignore

  /** The `chrome.alarms.onAlarm` listener: the reset alarm reruns
      `setDailyAlarms`, a `check-` alarm runs the feed check, and any other
      alarm is ignored. */
  function OnAlarm(name: string): (action: AlarmAction)
    ensures action == Reschedule <==> name == ResetAlarm
    ensures action == CheckFeed <==> StartsWith(name, CheckPrefix)
  {
    assert name == ResetAlarm ==> name[0] != CheckPrefix[0];
    if name == ResetAlarm then Reschedule
    else if StartsWith(name, CheckPrefix) then CheckFeed
    else Ignore
  }

  /** Every alarm a run sets is acted on: the reset alarm reschedules and
      every other one checks the feed. */
  lemma SetDailyAlarmsRouting(store: AlarmStore, cfg: Config, now: int, hostOffset: int)
    requires 0 <= now && -JstOffset <= hostOffset < MsPerDay - JstOffset
    requires AllTimeTexts(EffectiveTimes(cfg))
    ensures forall k :: k in SetDailyAlarms(store, cfg, now, hostOffset) ==>
      OnAlarm(k) == if k == ResetAlarm then Reschedule else CheckFeed
  {
    SetDailyAlarmsSpec(store, cfg, now, hostOffset);
  }

  /** On a JST host the code as written reads `toJst(now)` nine hours further
      on, so from 15:00 JST its "today" is the JST date of tomorrow, with
      tomorrow's weekday. */
  lemma JstHostReadsTomorrow(now: int)
    requires 15 * MsPerHour <= TimeWithinDay(ToJst(now))
    ensures Day(TodayLocal(now, JstOffset)) == Day(ToJst(now)) + 1
    ensures WeekDay(TodayLocal(now, JstOffset)) == WeekDay(ToJst(now) + MsPerDay)
  {
    var n := Day(ToJst(now));
    DayOfInstant(TodayLocal(now, JstOffset), n + 1);
    DayOfInstant(ToJst(now) + MsPerDay, n + 1);
  }

  /** From 15:00 JST on a check day whose next day is no check day, the code
      as written on a JST host sets no check alarm at all, and its reset alarm
      rings at the start of the UTC day two days after today's JST date. */
  lemma JstHostSkipsToday(store: AlarmStore, cfg: Config, now: int, t: string)
    requires 0 <= now && AllTimeTexts(EffectiveTimes(cfg))
    requires 15 * MsPerHour <= TimeWithinDay(ToJst(now))
    requires WeekDay(ToJst(now) + MsPerDay) !in EffectiveWeekdays(cfg)
    requires IsTimeText(t)
    ensures var r := SetDailyAlarms(store, cfg, now, JstOffset);
      CheckAlarmName(t) !in r && ResetAlarm in r && r[ResetAlarm] == (Day(ToJst(now)) + 2) * MsPerDay
  {
    SetDailyAlarmsSpec(store, cfg, now, JstOffset);
    JstHostReadsTomorrow(now);
    assert TimesToday(cfg, TodayLocal(now, JstOffset)) == [];
  }

  /** Under the JST reading the same run sets the check alarm for every
      configured time still ahead today, and the reset alarm for the start of
      the next UTC day. */
  lemma JstReadingKeepsToday(store: AlarmStore, cfg: Config, now: int, t: string)
    requires 0 <= now && AllTimeTexts(EffectiveTimes(cfg))
    requires WeekDay(ToJst(now)) in EffectiveWeekdays(cfg)
    requires t in EffectiveTimes(cfg) && JstInstant(Day(ToJst(now)), t) > now
    ensures var r := SetDailyAlarmsJst(store, cfg, now);
      CheckAlarmName(t) in r && ResetAlarm in r && r[ResetAlarm] == (Day(ToJst(now)) + 1) * MsPerDay
  {
    SetDailyAlarmsJstSpec(store, cfg, now);
    TimesTodaySpec(cfg, ToJst(now), t);
  }

  /** On a host in Japan (`hostOffset` nine hours) the code as written reads
      the fields of an instant nine hours after JST. From 15:00 JST on a check
      day whose next day is no check day, it skips the evening's checks that
      the JST reading schedules, and sets the reset alarm a day later than
      the JST reading does, so the next day is never scheduled either. */
  lemma JstHostDropsEvening(store: AlarmStore, cfg: Config, now: int, t: string)
    requires 0 <= now && AllTimeTexts(EffectiveTimes(cfg))
    requires 15 * MsPerHour <= TimeWithinDay(ToJst(now))
    requires WeekDay(ToJst(now)) in EffectiveWeekdays(cfg)
    requires WeekDay(ToJst(now) + MsPerDay) !in EffectiveWeekdays(cfg)
    requires t in EffectiveTimes(cfg) && JstInstant(Day(ToJst(now)), t) > now
    ensures CheckAlarmName(t) in SetDailyAlarmsJst(store, cfg, now)
    ensures CheckAlarmName(t) !in SetDailyAlarms(store, cfg, now, JstOffset)
    ensures var r := SetDailyAlarms(store, cfg, now, JstOffset);
      var rJst := SetDailyAlarmsJst(store, cfg, now);
      ResetAlarm in r && ResetAlarm in rJst && r[ResetAlarm] == rJst[ResetAlarm] + MsPerDay
  {
    JstHostSkipsToday(store, cfg, now, t);
    JstReadingKeepsToday(store, cfg, now, t);
  }

  lemma Time1900(t: string)
    requires t == "19:00"
    ensures IsTimeText(t) && TimeOfDay(t) == 19 * MsPerHour
  {
    TimeTextOf("19", "00");
    assert t == "19" + ":" + "00";
  }

  lemma Time1915(t: string)
    requires t == "19:15"
    ensures IsTimeText(t) && TimeOfDay(t) == 19 * MsPerHour + 15 * MsPerMinute
  {
    TimeTextOf("19", "15");
    assert t == "19" + ":" + "15";
  }

  /** The default times are time text. */
  lemma DefaultTimesText(times: seq<string>)
    requires times == DefaultCheckTimes
    ensures AllTimeTexts(times)
  {
    Time1900(times[0]);
    Time1915(times[1]);
    PairOfTimeTexts(times);
  }

  lemma PairOfTimeTexts(times: seq<string>)
    requires |times| == 2 && IsTimeText(times[0]) && IsTimeText(times[1])
    ensures AllTimeTexts(times)
  {
    assert forall t :: t in times ==> t == times[0] || t == times[1];
  }

  /** Wednesday 2026-10-14, 07:00 UTC, which is 16:00 JST. */
  const WednesdayAfternoon: int := 20740 * MsPerDay + 7 * MsPerHour

  /** It is 16:00 on a Wednesday in JST, and the next day is a Thursday. */
  lemma WednesdayAfternoonFields(now: int)
    requires now == WednesdayAfternoon
    ensures 0 <= now && Day(ToJst(now)) == 20740
    ensures TimeWithinDay(ToJst(now)) == 16 * MsPerHour
    ensures WeekDay(ToJst(now)) == 3 && WeekDay(ToJst(now) + MsPerDay) == 4
  {
  }

  /** That Wednesday is 2026-10-14 in the calendar, and its weekday follows
      from the calendar alone. */
  lemma WednesdayAfternoonDate(now: int)
    requires now == WednesdayAfternoon
    ensures DateOfDay(Day(ToJst(now))) == Date(2026, 10, 14)
    ensures WeekDay(Day(ToJst(now)) * MsPerDay) == 3
  {
    var n := Day(ToJst(now));
    assert n == 20740 by {
      WednesdayAfternoonFields(now);
    }
    KnownWednesday(Date(2026, 10, 14));
  }

  /** The defaults started at 16:00 JST on Wednesday 2026-10-14 on a host in
      Japan: the code as written sets no alarm for that evening's 19:00 check,
      which the JST reading does. */
  lemma JstHostDropsWednesdayEvening(cfg: Config, now: int, t: string)
    requires cfg == Defaults && now == WednesdayAfternoon && t == "19:00"
    ensures AllTimeTexts(EffectiveTimes(cfg))
    ensures CheckAlarmName(t) in SetDailyAlarmsJst(map[], cfg, now)
    ensures CheckAlarmName(t) !in SetDailyAlarms(map[], cfg, now, JstOffset)
  {
    DefaultTimesText(EffectiveTimes(cfg));
    Time1900(t);
    WednesdayAfternoonFields(now);
    JstHostDropsEvening(map[], cfg, now, t);
  }
}

=== FILE: settings.dfy ===
/** The persisted `config` record shared by the background worker and the options page. */
module Settings {
  import opened Wrappers

  /**
   * The stored configuration. A field is `None` when the stored object lacks it
   * (`undefined`) or holds `null`; the background worker and the options page
   * substitute their own defaults for such a field.
   */
  datatype Config = Config(
    channelId: Option<string>,
    checkTimesJst: Option<seq<string>>,
    weekdaysToCheck: Option<seq<int>>)

  /** The channel both default records name. */
  const DefaultChannelId: string := "UCwjx6ZG4pwCvAPSozYEWymA"
}

=== FILE: text.dfy ===
/**
 * The small part of JavaScript's string and number library that the extension
 * relies on: `split`/`join` on a one-character separator, `trim`, `includes`,
 * `startsWith`, the regular-expression case folding of a pattern without the
 * `u` flag, `Number` on a run of decimal digits, `String(n)`, `padStart(2, "0")`
 * and `parseInt(s, 10)`.
 */
module Text {
  import opened Wrappers

  // ---------------------------------------------------------------------------
  // Characters
  // ---------------------------------------------------------------------------

  /** ECMAScript WhiteSpace or LineTerminator: what `trim` and `parseInt` skip. */
  predicate IsJsSpace(c: char) {
    || c == '\t' || c == '\n' || c == '\U{000B}' || c == '\U{000C}' || c == '\r'
    || c == ' ' || c == '\U{00A0}' || c == '\U{1680}'
    || ('\U{2000}' <= c <= '\U{200A}')
    || c == '\U{2028}' || c == '\U{2029}' || c == '\U{202F}' || c == '\U{205F}'
    || c == '\U{3000}' || c == '\U{FEFF}'
  }

  predicate IsDigit(c: char) {
    '0' <= c <= '9'
  }

  predicate AllDigits(s: string) {
    forall i :: 0 <= i < |s| ==> IsDigit(s[i])
  }

  /** Digits only: no character other than a digit occurs. */
  lemma NoNonDigit(s: string, c: char)
    requires AllDigits(s) && !IsDigit(c)
    ensures c !in s
  {
  }

  /** A run of one or more decimal digits: the only text `Number` is applied to here. */
  predicate IsDigitRun(s: string) {
    |s| > 0 && AllDigits(s)
  }

  /** Characters a regular expression's `\w` and `\b` treat as word characters
      when the pattern has no `u` flag. */
  predicate IsWordChar(c: char) {
    ('a' <= c <= 'z') || ('A' <= c <= 'Z') || IsDigit(c) || c == '_'
  }

  /** Case folding of a pattern with the `i` flag and without the `u` flag,
      restricted to what matters when the pattern itself is ASCII: a character
      outside ASCII never folds onto an ASCII one. */
  function AsciiUpper(c: char): (u: char)
    ensures IsWordChar(u) <==> IsWordChar(c)
    ensures c < '\U{0080}' <==> u < '\U{0080}'
  {
    if 'a' <= c <= 'z' then (c as int - 32) as char else c
  }

  // ---------------------------------------------------------------------------
  // Searching
  // ---------------------------------------------------------------------------

  /** `pat` occurs in `s` at index `i`. */
  predicate OccursAt(s: string, pat: string, i: int) {
    0 <= i && i + |pat| <= |s| && s[i..i + |pat|] == pat
  }

  /** `s.includes(pat)`. */
  predicate Contains(s: string, pat: string) {
    exists i :: 0 <= i <= |s| - |pat| && OccursAt(s, pat, i)
  }

  /** `s.startsWith(pat)`. */
  predicate StartsWith(s: string, pat: string) {
    |pat| <= |s| && s[..|pat|] == pat
  }

  /** `pat` occurs in `s` at index `i` up to case folding (`/pat/i`). */
  predicate FoldOccursAt(s: string, pat: string, i: int) {
    && 0 <= i && i + |pat| <= |s|
    && forall k :: 0 <= k < |pat| ==> AsciiUpper(s[i + k]) == AsciiUpper(pat[k])
  }

  /** The characters before and after position `p` differ in being word
      characters: the assertion `\b` at `p`. */
  predicate WordBoundary(s: string, p: int)
    requires 0 <= p <= |s|
  {
    var before := p > 0 && IsWordChar(s[p - 1]);
    var after := p < |s| && IsWordChar(s[p]);
    before != after
  }

  // ---------------------------------------------------------------------------
  // split and join on a one-character separator
  // ---------------------------------------------------------------------------

  /** `s.split(sep)`: the pieces between separators, in order; the empty string
      splits into one empty piece. Joining the pieces gives `s` back. */
  function Split(s: string, sep: char): (parts: seq<string>)
    ensures |parts| >= 1
    ensures forall i :: 0 <= i < |parts| ==> sep !in parts[i]
    ensures Join(parts, sep) == s
    decreases |s|
  {
    if |s| == 0 then [""]
    else
      var rest := Split(s[1..], sep);
      if s[0] == sep then
        assert ([""] + rest)[1..] == rest;
        [""] + rest
      else
        var parts := [[s[0]] + rest[0]] + rest[1..];
        assert parts[1..] == rest[1..];
        assert s == [s[0]] + s[1..];
        parts
  }

  /** `parts.join(sep)`. */
  function Join(parts: seq<string>, sep: char): string
    decreases |parts|
  {
    if |parts| == 0 then ""
    else if |parts| == 1 then parts[0]
    else parts[0] + [sep] + Join(parts[1..], sep)
  }

  lemma {:induction false} SplitNoSeparator(s: string, sep: char)
    requires sep !in s
    ensures Split(s, sep) == [s]
    decreases |s|
  {
    if |s| > 0 {
      SplitNoSeparator(s[1..], sep);
      assert [s[0]] + s[1..] == s;
    }
  }

  lemma {:induction false} SplitAfterPiece(a: string, sep: char, t: string)
    requires sep !in a
    ensures Split(a + [sep] + t, sep) == [a] + Split(t, sep)
    decreases |a|
  {
    var s := a + [sep] + t;
    if |a| == 0 {
      assert s[1..] == t;
    } else {
      assert s[1..] == a[1..] + [sep] + t;
      SplitAfterPiece(a[1..], sep, t);
      assert [a[0]] + a[1..] == a;
    }
  }

  /** Splitting a join gives the pieces back, provided there is at least one
      piece and no piece contains the separator. */
  lemma {:induction false} SplitJoin(parts: seq<string>, sep: char)
    requires |parts| >= 1
    requires forall i :: 0 <= i < |parts| ==> sep !in parts[i]
    ensures Split(Join(parts, sep), sep) == parts
    decreases |parts|
  {
    if |parts| == 1 {
      SplitNoSeparator(parts[0], sep);
    } else {
      SplitJoin(parts[1..], sep);
      SplitAfterPiece(parts[0], sep, Join(parts[1..], sep));
      assert [parts[0]] + parts[1..] == parts;
    }
  }

  /** Joining two non-empty lists of pieces is joining each and putting a
      separator between. */
  lemma {:induction false} JoinConcat(a: seq<string>, b: seq<string>, sep: char)
    requires |a| >= 1 && |b| >= 1
    ensures Join(a + b, sep) == Join(a, sep) + [sep] + Join(b, sep)
    decreases |a|
  {
    if |a| > 1 {
      assert (a + b)[1..] == a[1..] + b;
      JoinConcat(a[1..], b, sep);
    } else {
      assert (a + b)[1..] == b;
    }
  }

  // ---------------------------------------------------------------------------
  // trim
  // ---------------------------------------------------------------------------

  /** No leading and no trailing white space. */
  predicate IsTrimmed(s: string) {
    |s| == 0 || (!IsJsSpace(s[0]) && !IsJsSpace(s[|s| - 1]))
  }

  /** Drops the leading white space: the dropped prefix is all white space and
      what is left does not start with white space. */
  function TrimStart(s: string): (r: string)
    ensures |r| <= |s| && r == s[|s| - |r|..]
    ensures forall i :: 0 <= i < |s| - |r| ==> IsJsSpace(s[i])
    ensures |r| > 0 ==> !IsJsSpace(r[0])
    decreases |s|
  {
    if |s| > 0 && IsJsSpace(s[0]) then TrimStart(s[1..]) else s
  }

  /** Drops the trailing white space: the dropped suffix is all white space and
      what is left does not end with white space. */
  function TrimEnd(s: string): (r: string)
    ensures |r| <= |s| && r == s[..|r|]
    ensures forall i :: |r| <= i < |s| ==> IsJsSpace(s[i])
    ensures |r| > 0 ==> !IsJsSpace(r[|r| - 1])
    decreases |s|
  {
    if |s| > 0 && IsJsSpace(s[|s| - 1]) then TrimEnd(s[..|s| - 1]) else s
  }

  /** Everything of `s` before index `i` and from index `j` on is white space. */
  predicate SpaceOutside(s: string, i: int, j: int)
    requires 0 <= i <= j <= |s|
  {
    && (forall k :: 0 <= k < i ==> IsJsSpace(s[k]))
    && (forall k :: j <= k < |s| ==> IsJsSpace(s[k]))
  }

  /** `s.trim()`: the slice of `s` left once the white space at its two ends
      is cut; the result is trimmed, and `s` itself when already trimmed. */
  function Trim(s: string): (r: string)
    ensures IsTrimmed(r)
    ensures |r| <= |s|
    ensures exists i, j | 0 <= i <= j <= |s| :: r == s[i..j] && SpaceOutside(s, i, j)
    ensures IsTrimmed(s) ==> r == s
  {
    TrimStartEnd(s);
    TrimEnd(TrimStart(s))
  }

  lemma TrimStartEnd(s: string)
    ensures var r := TrimEnd(TrimStart(s));
      && IsTrimmed(r)
      && (exists i, j | 0 <= i <= j <= |s| :: r == s[i..j] && SpaceOutside(s, i, j))
      && (IsTrimmed(s) ==> r == s)
  {
    var t := TrimStart(s);
    var r := TrimEnd(t);
    CutBothEnds(s, t, r);
  }

  /** Cutting white space from the front of `s`, giving `t`, and then from the
      back of `t`, giving `r`, leaves a slice of `s` with white space outside. */
  lemma CutBothEnds(s: string, t: string, r: string)
    requires |t| <= |s| && t == s[|s| - |t|..]
    requires forall k :: 0 <= k < |s| - |t| ==> IsJsSpace(s[k])
    requires |t| > 0 ==> !IsJsSpace(t[0])
    requires |r| <= |t| && r == t[..|r|]
    requires forall k :: |r| <= k < |t| ==> IsJsSpace(t[k])
    requires |r| > 0 ==> !IsJsSpace(r[|r| - 1])
    ensures IsTrimmed(r)
    ensures SpaceOutside(s, |s| - |t|, |s| - |t| + |r|)
    ensures r == s[|s| - |t|..|s| - |t| + |r|]
    ensures IsTrimmed(s) ==> r == s
  {
    var i := |s| - |t|;
    var j := i + |r|;
    assert |r| > 0 ==> r[0] == t[0];
    assert forall k :: j <= k < |s| ==> s[k] == t[k - i];
  }

  /** White space in front of text that does not start with white space is
      all that `TrimStart` drops. */
  lemma {:induction false} TrimStartPadded(a: string, x: string)
    requires forall k :: 0 <= k < |a| ==> IsJsSpace(a[k])
    requires |x| > 0 ==> !IsJsSpace(x[0])
    ensures TrimStart(a + x) == x
    decreases |a|
  {
    if |a| > 0 {
      assert (a + x)[1..] == a[1..] + x;
      TrimStartPadded(a[1..], x);
    } else {
      assert a + x == x;
    }
  }

  /** White space after text that does not end with white space is all that
      `TrimEnd` drops. */
  lemma {:induction false} TrimEndPadded(x: string, b: string)
    requires forall k :: 0 <= k < |b| ==> IsJsSpace(b[k])
    requires |x| > 0 ==> !IsJsSpace(x[|x| - 1])
    ensures TrimEnd(x + b) == x
    decreases |b|
  {
    if |b| > 0 {
      assert (x + b)[..|x + b| - 1] == x + b[..|b| - 1];
      TrimEndPadded(x, b[..|b| - 1]);
    } else {
      assert x + b == x;
    }
  }

  /** Trimming a trimmed text padded with white space at either end gives the
      text back. */
  lemma TrimPadded(a: string, s: string, b: string)
    requires forall k :: 0 <= k < |a| ==> IsJsSpace(a[k])
    requires forall k :: 0 <= k < |b| ==> IsJsSpace(b[k])
    requires s != "" && IsTrimmed(s)
    ensures Trim(a + s + b) == s
  {
    assert a + s + b == a + (s + b);
    TrimStartPadded(a, s + b);
    TrimEndPadded(s, b);
  }

  // ---------------------------------------------------------------------------
  // Numbers as text
  // ---------------------------------------------------------------------------

  function DigitValue(c: char): nat
    requires IsDigit(c)
  {
    c as int - '0' as int
  }

  function DigitChar(d: nat): (c: char)
    requires d < 10
    ensures IsDigit(c) && DigitValue(c) == d
  {
    ('0' as int + d) as char
  }

  /** The value of a run of decimal digits: `Number(s)` for such a run. */
  function DecimalValue(s: string): nat
    requires AllDigits(s)
    decreases |s|
  {
    if |s| == 0 then 0 else DecimalValue(s[..|s| - 1]) * 10 + DigitValue(s[|s| - 1])
  }

  /** `String(n)` for a non-negative integer: decimal digits that read back as `n`. */
  function NatToString(n: nat): (s: string)
    ensures IsDigitRun(s)
    ensures DecimalValue(s) == n
    ensures n < 10 ==> |s| == 1
    ensures n < 100 ==> |s| <= 2
    ensures |s| > 1 ==> s[0] != '0'
    decreases n
  {
    if n < 10 then [DigitChar(n)]
    else
      var s := NatToString(n / 10) + [DigitChar(n % 10)];
      assert s[..|s| - 1] == NatToString(n / 10);
      s
  }

  /** `String(n)` for any integer. */
  function IntToString(n: int): string {
    if n < 0 then "-" + NatToString(-n) else NatToString(n)
  }

  /** `String(n).padStart(2, "0")`: at least two digits, and the same value. */
  function Pad2(n: nat): (s: string)
    ensures |s| >= 2 && IsDigitRun(s)
    ensures n < 100 ==> |s| == 2
    ensures |s| > 2 ==> s[0] != '0'
    ensures DecimalValue(s) == n
  {
    var d := NatToString(n);
    if |d| < 2 then
      var s := "0" + d;
      assert s[..|s| - 1] == "0";
      s
    else d
  }

  /** The longest prefix of `s` made of decimal digits. */
  function DigitPrefix(s: string): (r: string)
    ensures AllDigits(r) && |r| <= |s| && r == s[..|r|]
    ensures |r| < |s| ==> !IsDigit(s[|r|])
    decreases |s|
  {
    if |s| > 0 && IsDigit(s[0]) then
      var r := [s[0]] + DigitPrefix(s[1..]);
      assert r == s[..|r|] by { assert s == [s[0]] + s[1..]; }
      r
    else ""
  }

  /** The number the digits at the start of `s` spell, or `None` when `s`
      does not start with a digit. */
  function LeadingNumber(s: string): Option<int> {
    var digits := DigitPrefix(s);
    if |digits| == 0 then None else Some(DecimalValue(digits))
  }

  /** `parseInt(s, 10)`, with `None` for `NaN`: skip leading white space, read an
      optional sign, then the longest run of digits; no digits gives `NaN`. */
  function ParseInt(s: string): Option<int> {
    var t := TrimStart(s);
    if |t| > 0 && t[0] == '-' then
      match LeadingNumber(t[1..])
      case None => None
      case Some(m) => Some(-m)
    else if |t| > 0 && t[0] == '+' then LeadingNumber(t[1..])
    else LeadingNumber(t)
  }

  lemma {:induction false} DigitPrefixOfDigits(s: string, rest: string)
    requires AllDigits(s)
    requires |rest| > 0 ==> !IsDigit(rest[0])
    ensures DigitPrefix(s + rest) == s
    decreases |s|
  {
    if |s| > 0 {
      var u := s + rest;
      assert u[0] == s[0] && u[1..] == s[1..] + rest;
      DigitPrefixOfDigits(s[1..], rest);
      assert DigitPrefix(u) == [s[0]] + s[1..];
      assert [s[0]] + s[1..] == s;
    } else {
      assert s + rest == rest;
    }
  }

  /** A run of digits followed by something that is not a digit reads as the
      run's value. */
  lemma LeadingNumberOf(d: string, rest: string)
    requires IsDigitRun(d)
    requires |rest| > 0 ==> !IsDigit(rest[0])
    ensures LeadingNumber(d + rest) == Some(DecimalValue(d))
  {
    DigitPrefixOfDigits(d, rest);
  }

  lemma TrimStartNoSpace(s: string)
    requires |s| > 0 && !IsJsSpace(s[0])
    ensures TrimStart(s) == s
  {
  }

  lemma ParseIntNegative(d: string, rest: string)
    requires IsDigitRun(d)
    requires |rest| > 0 ==> !IsDigit(rest[0])
    ensures ParseInt("-" + d + rest) == Some(-(DecimalValue(d) as int))
  {
    var s := "-" + d + rest;
    assert s[0] == '-';
    TrimStartNoSpace(s);
    assert s[1..] == d + rest;
    LeadingNumberOf(d, rest);
  }

  lemma ParseIntUnsigned(d: string, rest: string)
    requires IsDigitRun(d)
    requires |rest| > 0 ==> !IsDigit(rest[0])
    ensures ParseInt(d + rest) == Some(DecimalValue(d))
  {
    var s := d + rest;
    assert s[0] == d[0] && IsDigit(s[0]);
    TrimStartNoSpace(s);
    LeadingNumberOf(d, rest);
  }

  /** `parseInt` reads back what `String` writes, and stops at the first
      character that is not a digit (`parseInt("3x", 10)` is 3). */
  lemma ParseIntOfString(n: int, rest: string)
    requires |rest| > 0 ==> !IsDigit(rest[0])
    ensures ParseInt(IntToString(n) + rest) == Some(n)
  {
    if n < 0 {
      ParseIntNegative(NatToString(-n), rest);
    } else {
      ParseIntUnsigned(NatToString(n), rest);
    }
  }
}

=== FILE: wrappers.dfy ===
/** Optional values: the model's stand-in for JavaScript's `null` / `undefined`. */
module Wrappers {

  /** `None` is an absent (null or undefined) value; `Some(v)` a present one. */
  datatype Option<+T> = None | Some(value: T) {

    /** The value, or `default` when absent: JavaScript's `x ?? default`. */
    function GetOr(default: T): T {
      match this
      case Some(v) => v
      case None => default
    }
  }
}
